=== FILE: README.md ===
# tang-iam-proxy in Dafny

tang-iam-proxy is a TLS-terminating reverse proxy. It sits in front of a
multi-tenant Tang server. A client presents an X.509 SVID, which is a
certificate whose Subject Alternative Name carries a `spiffe://` URI. The
server requests a client certificate (`tls.RequireAnyClientCert`) but does not
verify its chain, so the URI is taken as presented. The proxy then does four
things:

1. It reads the first such URI from the peer chain.
2. It looks up the tenant ("workspace") bound to that identity in a `bindings`
   table.
3. It rewrites the request so the workspace appears in the path: after the
   well-known prefix `/api/dee-hms/` when the path contains it, otherwise as
   the first path segment.
4. It authenticates itself upstream with static HTTP Basic credentials and
   forwards the request to the configured Tang host.

This project models the request-handling core of `tang_iam_proxy.go` as pure
functions and proves properties of it:

- `Identity`: `getSpiffeId`, on a chain of certificates reduced to their URI
  SANs.
- `Bindings`: `getWorkspace`. The SQL table is a map from SPIFFE id to
  workspace plus an optional driver failure.
- `Credentials`: `basicAuth` and `addUserPassword`, down to the bytes.
  - `Utf8` models Go's `[]byte(string)`.
  - `Base64` models `base64.StdEncoding.EncodeToString` (section 4 of
    RFC 4648).
  - Both come with a strict decoder and a proof that each encoding is a
    bijection onto the strings that decoder accepts.
- `Headers`: `http.Header`, a map from key to a list of values, with `Add`
  and `Get`.
- `Strings`: Go's `strings.HasPrefix`, `Contains`, `ReplaceAll` and `Count`,
  written the way Go's loop computes them. `ReplaceAll` is proved equal to an
  independent character-by-character scan (`ReplaceAllIsScan`). `Index` and
  `Contains` are proved equal to "the first position where the pattern
  occurs" and "the pattern occurs somewhere" (`IndexFromSpec`, `ContainsIff`).
- `Proxy`: `SimpleProxy.ServeHTTP`. The handler maps the peer chain, the
  store, the request and the proxy configuration to the request handed to
  `httputil.ReverseProxy`. It also returns the stages it went through, and
  each call of `http.Error` counts as a rejection stage.
  - `Proxy.ServeHTTP` is the handler as written.
  - `Proxy.ServeChecked` is the handler with the early returns its error
    branches intend (see Findings).

Some consequences of the code that the model keeps:

- `addUserPassword` uses `Header.Add`, so the configured `Authorization`
  value is appended after any value the client sent; it does not replace it.
- `Host` is also added with `Header.Add`.
- The handler reads no `X-Forwarded-Host` header.
- An empty workspace is not treated specially: it is spliced into the path
  like any other.

## Model

| member | source | states |
|---|---|---|
| Identity.FirstSpiffeUri | tang_iam_proxy.go:93-97 | the inner loop returns a URI with prefix `spiffe://` taken from the certificate's URIs, and finds none exactly when no URI has that prefix |
| Identity.GetSpiffeId | tang_iam_proxy.go:90-100 | a successful result is always a `spiffe://` URI |
| Identity.FirstSpiffeUriAt | tang_iam_proxy.go:93-96 | the first URI with the prefix in a certificate is the one returned |
| Identity.GetSpiffeIdAt | tang_iam_proxy.go:92-96 | the result is the URI at the first position, in chain order and then SAN order, carrying the prefix |
| Identity.GetSpiffeIdFails | tang_iam_proxy.go:99 | the error is returned exactly when no URI of any certificate has the prefix |
| Identity.GetSpiffeIdFound | tang_iam_proxy.go:92-96 | every successful result sits at some first-prefixed position of the chain |
| Identity.EarliestSpiffe | tang_iam_proxy.go:92-96 | any prefixed URI in the chain implies that a first prefixed position exists |
| Identity.FirstSpiffeUriAppend | tang_iam_proxy.go:92-97 | scanning two URI lists back to back finds the first list's hit, else the second's |
| Identity.GetSpiffeIdIsFlatScan | tang_iam_proxy.go:90-100 | the nested loop equals one scan over all SAN URIs of the chain concatenated |
| Bindings.GetWorkspace | tang_iam_proxy.go:103-113 | succeeds exactly when the query does not fail and the id is bound, returning the bound workspace; an error names the id, and is "no workspace found" exactly when the query itself did not fail |
| Bindings.LookupError.Message | tang_iam_proxy.go:108-110 | both error texts begin with `getWorkspace <id>: `; `MessagesCoincide` says when the two texts coincide |
| Bindings.MessagesCoincide | tang_iam_proxy.go:107-110 | a driver error is indistinguishable from a missing binding exactly when its text is "no workspace found" |
| Strings.HasPrefix | tang_iam_proxy.go:94 | a string with prefix `p` is `p` followed by the rest of the string; the converse is `PrefixOfConcat` |
| Strings.Contains | tang_iam_proxy.go:172 | a contained pattern is no longer than the string, and a string contains each of its prefixes; `ContainsIff` characterises it exactly by occurrence |
| Strings.ReplaceAll | tang_iam_proxy.go:173 | a string without an occurrence of the pattern comes back unchanged, as Go's no-match shortcut returns it; `ReplaceAllIsScan` proves it equal to the reference scan and `ReplaceAllLength` accounts for its length |
| Strings.IndexFrom | tang_iam_proxy.go:172 | a reported match position lies inside the string, at or after the start offset |
| Strings.IndexFromSpec | tang_iam_proxy.go:172 | the reported position is a real occurrence with no earlier one; `None` means there is no occurrence at all |
| Strings.IndexFromFirst | tang_iam_proxy.go:172 | conversely, the first occurrence is the one reported |
| Strings.IndexFromNone | tang_iam_proxy.go:172 | conversely, with no occurrence the result is `None` |
| Strings.ContainsIff | tang_iam_proxy.go:172 | `Contains` holds exactly when the pattern occurs at some position |
| Strings.ShortNotContains | tang_iam_proxy.go:172 | a string shorter than the pattern never contains it |
| Strings.ReplaceFromIsScan | tang_iam_proxy.go:173 | Go's jump-to-next-match replacement loop equals the character-by-character leftmost, non-overlapping scan |
| Strings.ReplaceAllIsScan | tang_iam_proxy.go:173 | `ReplaceAll` with a non-empty pattern equals the reference scan |
| Strings.ScanHit | tang_iam_proxy.go:173 | a match step of the loop agrees with the reference scan |
| Strings.ScanMiss | tang_iam_proxy.go:173 | a non-match step of the loop agrees with the reference scan |
| Strings.OccursAtShift | tang_iam_proxy.go:173 | an occurrence in a suffix is an occurrence in the whole string shifted by the prefix length |
| Strings.ScanShift | tang_iam_proxy.go:173 | scanning a string from inside its suffix is scanning the suffix |
| Strings.ReplaceAllPrefix | tang_iam_proxy.go:173 | a leading occurrence is replaced and the rest is processed independently |
| Strings.ScanSelfHit | tang_iam_proxy.go:173 | one matching step that replaces the pattern with itself leaves the text unchanged |
| Strings.ScanSelf | tang_iam_proxy.go:173 | the reference scan replacing the pattern with itself is the identity |
| Strings.InterleaveEmpty | tang_iam_proxy.go:173 | with an empty pattern, inserting `""` between runes is the identity |
| Strings.ReplaceAllSelf | tang_iam_proxy.go:173 | replacing a pattern with itself is the identity, the empty pattern included |
| Strings.ReplaceFromLength | tang_iam_proxy.go:173 | from any offset, every replacement changes the length by `|rep| - |pat|` |
| Strings.LengthStep | tang_iam_proxy.go:173 | the length relation carries over one replacement |
| Strings.ReplaceAllLength | tang_iam_proxy.go:173 | result length plus `Count * |pat|` equals input length plus `Count * |rep|` |
| Strings.ReplaceAllSingle | tang_iam_proxy.go:173 | a single occurrence is replaced in place |
| Strings.ReplaceAllFirstAt | tang_iam_proxy.go:173 | the first occurrence is replaced in place and the rest is processed on its own |
| Strings.ReplaceFromSuffix | tang_iam_proxy.go:173 | the loop resumed at an offset is `ReplaceAll` of the suffix from there |
| Strings.ScanShiftHit | tang_iam_proxy.go:173 | a match step of the reference scan is unaffected by text in front |
| Strings.ScanShiftMiss | tang_iam_proxy.go:173 | a non-match step of the reference scan is unaffected by text in front |
| Utf8.Encode | tang_iam_proxy.go:143 | no contract of its own; `EncodeBounds`, `DecodeEncode`, `EncodeDecode`, `EncodeAppend` and `EncodeAscii` state its properties |
| Utf8.EncodeBounds | tang_iam_proxy.go:143 | every character takes one to four bytes, so `[]byte(s)` has between `|s|` and `4 * |s|` bytes |
| Utf8.EncodeCharVectors | tang_iam_proxy.go:143 | U+20AC encodes to `E2 82 AC` and U+1F600 to `F0 9F 98 80`, as UTF-8 prescribes |
| Utf8.EncodeChar | tang_iam_proxy.go:143 | a code point becomes 1 to 4 bytes, exactly one when it is ASCII |
| Utf8.DecodeFirstOne | tang_iam_proxy.go:143 | the strict decoder reads back a one-byte encoding |
| Utf8.DecodeFirstTwo | tang_iam_proxy.go:143 | the strict decoder reads back a two-byte encoding |
| Utf8.DecodeFirstThree | tang_iam_proxy.go:143 | the strict decoder reads back a three-byte encoding |
| Utf8.DecodeFirstFour | tang_iam_proxy.go:143 | the strict decoder reads back a four-byte encoding |
| Utf8.DecodeFirstEncodeChar | tang_iam_proxy.go:143 | decoding the first character of any encoded character returns it and its length |
| Utf8.DecodeEncode | tang_iam_proxy.go:143 | `[]byte(s)` is lossless: decoding the encoding returns `s` |
| Utf8.EncodeDecodeFirstTwo | tang_iam_proxy.go:143 | a two-byte sequence the decoder accepts is the encoding of what it decodes to |
| Utf8.EncodeDecodeFirstThree | tang_iam_proxy.go:143 | the same for three-byte sequences |
| Utf8.EncodeDecodeFirstFour | tang_iam_proxy.go:143 | the same for four-byte sequences |
| Utf8.EncodeDecodeFirst | tang_iam_proxy.go:143 | the same for every first character |
| Utf8.EncodeDecode | tang_iam_proxy.go:143 | every byte string the decoder accepts is the encoding of its decoding, so `Encode` is a bijection onto valid UTF-8 |
| Utf8.EncodeAppend | tang_iam_proxy.go:142-143 | encoding a concatenation is concatenating the encodings |
| Utf8.EncodeAscii | tang_iam_proxy.go:143 | an ASCII string encodes to one byte per character |
| Base64.CharOf | tang_iam_proxy.go:143 | every 6-bit value maps into the standard alphabet |
| Base64.CharOfTable | tang_iam_proxy.go:143 | the values of `CharOf` for 0 to 63, in order, spell Table 1 of RFC 4648, `A`-`Z`, `a`-`z`, `0`-`9`, `+`, `/` |
| Base64.ValueOf | tang_iam_proxy.go:143 | alphabet characters, and only they, have a value, and it maps back to the character |
| Base64.ValueOfCharOf | tang_iam_proxy.go:143 | the alphabet is a bijection on 6-bit values |
| Base64.Encode | tang_iam_proxy.go:143 | the output is empty exactly for empty input, and otherwise at least one 4-character group |
| Base64.EncodeLength | tang_iam_proxy.go:143 | the output has 4 characters per started 3-byte group |
| Base64.DecodeEncodeBlock | tang_iam_proxy.go:143 | a full 3-byte group decodes back |
| Base64.DecodeEncodeTwo | tang_iam_proxy.go:143 | a padded 2-byte tail decodes back |
| Base64.DecodeEncodeOne | tang_iam_proxy.go:143 | a padded 1-byte tail decodes back |
| Base64.DecodeEncodeThree | tang_iam_proxy.go:143 | a final 3-byte group decodes back |
| Base64.DecodeEncodeStep | tang_iam_proxy.go:143 | decoding proceeds group by group over an encoding |
| Base64.DecodeCons | tang_iam_proxy.go:143 | a valid leading group followed by a decodable rest decodes to their concatenation |
| Base64.DecodeEncode | tang_iam_proxy.go:143 | `StdEncoding` is lossless: decoding the encoding returns the bytes |
| Base64.RfcVectors | tang_iam_proxy.go:143 | the test vectors of section 10 of RFC 4648: `f`, `fo`, `foo`, `foobar` encode to `Zg==`, `Zm8=`, `Zm9v`, `Zm9vYmFy`, which fixes the bit order and the padding |
| Base64.HighValuesVector | tang_iam_proxy.go:143 | bytes `fb ff` encode to `+/8=`, so 62 and 63 are `+` and `/` as in the standard alphabet, not the URL-safe one |
| Base64.EncodeAlphabet | tang_iam_proxy.go:143 | every output character is in the alphabet, or is `=` in one of the last two positions |
| Base64.EncodeDecodeBlock | tang_iam_proxy.go:143 | a full group the decoder accepts is the encoding of its decoding |
| Base64.EncodeDecodeLast | tang_iam_proxy.go:143 | a padded final group the strict decoder accepts is the encoding of its decoding |
| Base64.EncodeDecodeStep | tang_iam_proxy.go:143 | the same, one group at a time |
| Base64.EncodeDecode | tang_iam_proxy.go:143 | every string the strict decoder accepts is an encoding, so `Encode` is a bijection onto canonical padded Base 64 |
| Headers.Add | tang_iam_proxy.go:148 | `Header.Add` appends the value to the key's values and changes no other key |
| Headers.Get | tang_iam_proxy.go:148 | the value an upstream reading the header with `Header.Get` sees: the first value of the key, or `""` only when the key has none |
| Headers.GetAfterAdd | tang_iam_proxy.go:148 | after `Add`, `Get` still returns a value that was already there, and otherwise the added one |
| Credentials.AddUserPassword | tang_iam_proxy.go:147-149 | appends `Basic <basicAuth(user, password)>` to `Authorization` and leaves every other header alone |
| Credentials.BasicAuth | tang_iam_proxy.go:141-144 | the credentials are never empty: at least one 4-character group, since the colon alone is one byte; `BasicAuthShape` and `BasicAuthDecodes` give its shape and round trip |
| Credentials.AuthorizationValue | tang_iam_proxy.go:148 | the value is the scheme `Basic ` followed by at least one group; `ParseAuthorizationValue` recovers the credentials from it |
| Credentials.BasicAuthShape | tang_iam_proxy.go:141-144 | the length and alphabet of the encoding: 4 characters per started group of 3 bytes, alphabet characters, and `=` only in the last two positions; `Base64.CharOfTable` and `Base64.RfcVectors` pin the encoder itself to standard Base 64 |
| Credentials.BasicAuthAsciiLength | tang_iam_proxy.go:141-144 | for ASCII credentials the encoding is `4 * ceil((|user| + 1 + |password|) / 3)` long |
| Credentials.BasicAuthDecodes | tang_iam_proxy.go:141-144 | decoding the Base 64, then the UTF-8, yields exactly `user:password` |
| Credentials.FirstColon | tang_iam_proxy.go:142 | a user without a colon puts the first colon of `user:password` right after the user |
| Credentials.ParseAuthorizationValue | tang_iam_proxy.go:147-149 | an upstream parsing the header value per RFC 7617 recovers user and password when the user has no colon |
| Credentials.ColonInUserIsAmbiguous | tang_iam_proxy.go:142 | a colon in the user is not rejected: user `a:b` with password `c` sends the same header as user `a` with password `b:c` |
| Proxy.RewritePath | tang_iam_proxy.go:169-177 | with `EE_URL` in the path, the result is `EE_URL + workspace + "/"` followed by the path with every `EE_URL` removed; without it, `"/" + workspace` followed by the unchanged path |
| Proxy.StripHttps | tang_iam_proxy.go:179 | the host is never longer than the target, and is the target itself when that has no `https://` |
| Proxy.ServeHTTP | tang_iam_proxy.go:152-201 | as written, every request is forwarded after four stages; the first is `Unauthenticated` exactly when `getSpiffeId` fails, the second is `Unauthorized` exactly when the lookup under the id (or `""`) fails |
| Proxy.ServeChecked | tang_iam_proxy.go:156-165 | with early returns, a request is forwarded exactly when its identity is found and bound, and a request that is not forwarded is left as received |
| Proxy.Rewrite | tang_iam_proxy.go:168-188 | the rewritten request has the new path, scheme `https`, URL host and `Host` equal to the stripped target; one `Authorization` and one `Host` value are appended; no other header changes |
| Proxy.RewritePathPivot | tang_iam_proxy.go:172-174 | a path containing `EE_URL` becomes `EE_URL + workspace + "/"` followed by the path with every `EE_URL` removed, and each removal shortens it by the length of `EE_URL` |
| Proxy.RewritePathAfterPivot | tang_iam_proxy.go:172-174 | a path starting with `EE_URL` and containing it only there gets the workspace inserted right after the prefix |
| Proxy.PrefixContains | tang_iam_proxy.go:172 | a string starting with `EE_URL` contains it |
| Proxy.RewritePathPlain | tang_iam_proxy.go:175-176 | a path without `EE_URL` gets `/` + workspace prepended and is otherwise kept |
| Proxy.RewritePathExamples | tang_iam_proxy.go:172-176 | `/api/dee-hms/foo/bar` becomes `/api/dee-hms/w1/foo/bar`, and `/foo/bar` becomes `/w1/foo/bar` |
| Proxy.RewritePathMovesPrefix | tang_iam_proxy.go:172-174 | when `EE_URL` first occurs after some text `a` and not again, the path becomes `EE_URL + workspace + "/" + a + rest`, so the text before `EE_URL` moves behind the workspace |
| Proxy.RewritePathMidPivot | tang_iam_proxy.go:172-174 | `EE_URL` in the middle is also removed: `/v1/api/dee-hms/keys` becomes `/api/dee-hms/w1//v1keys` |
| Proxy.StripHttpsOfTarget | tang_iam_proxy.go:179 | `https://host` yields `host` when `host` has no further `https://` |
| Proxy.StripHttpsCanLeaveScheme | tang_iam_proxy.go:179 | removing every `https://` once can create a new one: `hthttps://tps://x` becomes `https://x` |
| Proxy.RewriteAuthorizationSeenUpstream | tang_iam_proxy.go:148 | because the credentials are appended, `Header.Get("Authorization")` upstream returns the client's own value when it sent one, and the configured credentials otherwise |
| Proxy.ServeHTTPForwardedWorkspace | tang_iam_proxy.go:156-200 | as written, the request is forwarded into the workspace the `bindings` table gives the first SPIFFE URI of the chain, or the one it gives `""` when the chain has none; a missing row or a failed query forwards into `""` |
| Proxy.UnauthenticatedIsForwarded | tang_iam_proxy.go:156-176 | as written, a client without a SPIFFE id triggers `http.Error`, and its request is still looked up under `""`, rewritten and forwarded |
| Proxy.UnauthenticatedExample | tang_iam_proxy.go:156-176 | as written, no certificate and an empty table give two `http.Error` calls and a forwarded `//keys` |
| Proxy.UnauthenticatedReachesBoundWorkspace | tang_iam_proxy.go:156-176 | as written, a binding for `""` routes unauthenticated clients into that workspace |
| Proxy.ServeCheckedRejects | tang_iam_proxy.go:157-165 | with early returns, a rejected request is untouched and `http.Error` is called exactly once, as the last stage |
| Proxy.ServeCheckedIgnoresStoreWithoutIdentity | tang_iam_proxy.go:157-161 | with early returns, the store is never consulted without an identity |
| Proxy.ServeCheckedAgreesWhenAuthorized | tang_iam_proxy.go:156-200 | when both lookups succeed, the corrected handler equals the one as written |
| Proxy.ServeCheckedForwardedRequest | tang_iam_proxy.go:156-200 | a forwarded request carries the workspace bound to the client's identity in its path, the stripped target host, and the appended credentials and `Host` |

## Left out

- Logging (`log.Print*`, `printConnState`, the header loop at lines 183-185, the verbose `DumpRequest*` at lines 189-198): no effect on the request.
- `main`: flag parsing, opening the MySQL database, TLS configuration (the server certificate and key files, `tls.RequireAnyClientCert`), and server timeouts.
- `newProxy` and `url.Parse`: the reverse proxy's own forwarding is a final `Dispatched` stage, not a model of `httputil.ReverseProxy` (which also rewrites the URL against the target and adds forwarding headers).
- http_server_x509_svid_parser.go is not part of this model.
- Certificate parsing: a certificate is reduced to the string forms of its URI SANs; `url.URL.String()` normalisation is not modelled.
- A request with no TLS state (`r.TLS == nil`), which makes the Go code panic, is not modelled: every request comes with a possibly empty chain.
- Identity.GetSpiffeId: the model takes the presented certificate as given. `tls.RequireAnyClientCert` (line 254) does not verify the chain, so a self-signed certificate with any `spiffe://` SAN is accepted; nothing in the model stands for chain verification.
- Identity.GetSpiffeId: the error's text is represented by the constant `NoSpiffeId`, not as a string.
- Bindings.GetWorkspace: SQL matters (collation, `NULL` workspaces, several rows for one id) are abstracted; the table is a map and a failure is a single optional error text.
- Headers.Add: header-key canonicalisation (`textproto.CanonicalMIMEHeaderKey`) is not modelled; keys are compared as given, and the model only uses the canonical `Authorization` and `Host`.
- The response writer: each `http.Error` call is a rejection stage in the trace, and its body `not authorized!!` is not modelled.
- Proxy.Rejections: counts `http.Error` calls, not status lines sent. net/http ignores a second `WriteHeader` as superfluous, so the client gets one 401 whose body repeats `not authorized!!`, followed by the upstream body that line 200 copies.
- Strings: a Go string is a sequence of bytes, and `r.URL.Path` can hold any byte after percent-decoding (`/%FF/api/dee-hms/x` puts byte 0xFF in the path). Here a string is a sequence of Unicode scalar values, so input that is not valid UTF-8 is not represented. For the same reason `Utf8.Encode` re-encodes scalar values where `[]byte(s)` copies bytes. On valid UTF-8 the two views agree: every pattern the handler matches (`/api/dee-hms/`, `https://`, `spiffe://`) is ASCII, and an ASCII byte never occurs inside a multi-byte encoding, so matching byte by byte or character by character finds the same positions.
- Strings.ReplaceAll: Go inserts the replacement between UTF-8 runes for an empty pattern; here strings are sequences of code points, and the handler only uses non-empty patterns.

## Findings

| source | as written | input that shows it | evidently intended | confidence | as-written member | corrected member |
|---|---|---|---|---|---|---|
| tang_iam_proxy.go:157-165 | after `http.Error(w, "not authorized!!", 401)` the handler does not return, so it goes on to look up the workspace, rewrite the request and forward it | a request for `/keys` from a client with no certificate and an empty `bindings` table: `http.Error` is called twice, and the request is forwarded to `//keys`; with a row binding `""` it reaches that tenant | return after each `http.Error`, forwarding only requests whose identity is bound | high, not executed | Proxy.UnauthenticatedIsForwarded | Proxy.ServeChecked |

=== FILE: base64.dfy ===
/** Base 64 with the standard alphabet and `=` padding (section 4 of RFC 4648),
    as Go's `base64.StdEncoding.EncodeToString`.

    `Encode` works three bytes at a time; a final group of one or two bytes is
    padded to four characters with `=`. `Decode` is the strict inverse: it
    accepts only what `Encode` can produce, so `DecodeEncode` and
    `EncodeDecode` together make the two a bijection. */
module Base64 {
  import opened Wrappers
  import opened Bytes
  import opened Seqs

  /** The padding character. */
  const Pad: char := '='

  /** A character of the alphabet of Table 1 of RFC 4648. */
  predicate IsAlphabetChar(c: char) {
    ('A' <= c <= 'Z') || ('a' <= c <= 'z') || ('0' <= c <= '9') || c == '+' || c == '/'
  }

  /** Table 1 of RFC 4648: the character that encodes a six-bit value. */
  function CharOf(v: int): (c: char)
    requires 0 <= v < 64
    ensures IsAlphabetChar(c)
  {
    if v < 26 then ('A' as int + v) as char
    else if v < 52 then ('a' as int + (v - 26)) as char
    else if v < 62 then ('0' as int + (v - 52)) as char
    else if v == 62 then '+'
    else '/'
  }

  /** The six-bit value a character encodes, read back from Table 1. */
  function ValueOf(c: char): (r: Option<int>)
    ensures r.Some? ==> 0 <= r.value < 64 && CharOf(r.value) == c
    ensures r.Some? <==> IsAlphabetChar(c)
  {
    if 'A' <= c <= 'Z' then Some(c as int - 'A' as int)
    else if 'a' <= c <= 'z' then Some(c as int - 'a' as int + 26)
    else if '0' <= c <= '9' then Some(c as int - '0' as int + 52)
    else if c == '+' then Some(62)
    else if c == '/' then Some(63)
    else None
  }

  /** Table 1 of RFC 4648, written out as one string. */
  const Table: string := "ABCDEFGHIJKLMNOPQRSTUVWXYZabcdefghijklmnopqrstuvwxyz0123456789+/"

  /** `CharOf` is Table 1 of RFC 4648: its values for 0 to 63, in order,
      spell the table. */
  lemma CharOfTable()
    ensures [CharOf(0), CharOf(1), CharOf(2), CharOf(3), CharOf(4), CharOf(5), CharOf(6), CharOf(7),
             CharOf(8), CharOf(9), CharOf(10), CharOf(11), CharOf(12), CharOf(13), CharOf(14), CharOf(15),
             CharOf(16), CharOf(17), CharOf(18), CharOf(19), CharOf(20), CharOf(21), CharOf(22), CharOf(23),
             CharOf(24), CharOf(25), CharOf(26), CharOf(27), CharOf(28), CharOf(29), CharOf(30), CharOf(31),
             CharOf(32), CharOf(33), CharOf(34), CharOf(35), CharOf(36), CharOf(37), CharOf(38), CharOf(39),
             CharOf(40), CharOf(41), CharOf(42), CharOf(43), CharOf(44), CharOf(45), CharOf(46), CharOf(47),
             CharOf(48), CharOf(49), CharOf(50), CharOf(51), CharOf(52), CharOf(53), CharOf(54), CharOf(55),
             CharOf(56), CharOf(57), CharOf(58), CharOf(59), CharOf(60), CharOf(61), CharOf(62), CharOf(63)] == Table
  {
  }

  lemma ValueOfCharOf(v: int)
    requires 0 <= v < 64
    ensures ValueOf(CharOf(v)) == Some(v)
  {
  }

  /** Three bytes as four characters: 24 bits cut into four six-bit groups. */
  function EncodeBlock(b0: byte, b1: byte, b2: byte): string {
    [CharOf(b0 as int / 4), CharOf(b0 as int % 4 * 16 + b1 as int / 16),
     CharOf(b1 as int % 16 * 4 + b2 as int / 64), CharOf(b2 as int % 64)]
  }

  /** A final group of two bytes: three characters and one `=`. */
  function EncodeTwo(b0: byte, b1: byte): string {
    [CharOf(b0 as int / 4), CharOf(b0 as int % 4 * 16 + b1 as int / 16),
     CharOf(b1 as int % 16 * 4), Pad]
  }

  /** A final group of one byte: two characters and `==`. */
  function EncodeOne(b0: byte): string {
    [CharOf(b0 as int / 4), CharOf(b0 as int % 4 * 16), Pad, Pad]
  }

  /** `base64.StdEncoding.EncodeToString(b)`. */
  function Encode(b: seq<byte>): (r: string)
    ensures |r| == 0 <==> |b| == 0
    ensures |b| > 0 ==> |r| >= 4
    decreases |b|
  {
    if |b| == 0 then ""
    else if |b| == 1 then EncodeOne(b[0])
    else if |b| == 2 then EncodeTwo(b[0], b[1])
    else EncodeBlock(b[0], b[1], b[2]) + Encode(b[3..])
  }

  /** Four alphabet characters as three bytes. */
  function DecodeBlock(s: string): Option<seq<byte>>
    requires |s| == 4
  {
    match (ValueOf(s[0]), ValueOf(s[1]), ValueOf(s[2]), ValueOf(s[3]))
    case (Some(c0), Some(c1), Some(c2), Some(c3)) =>
      Some([(c0 * 4 + c1 / 16) as byte, (c1 % 16 * 16 + c2 / 4) as byte, (c2 % 4 * 64 + c3) as byte])
    case _ => None
  }

  /** The last four characters: a full block, or one ending in `=` or `==`
      whose unused low bits are zero. */
  function DecodeLast(s: string): Option<seq<byte>>
    requires |s| == 4
  {
    if s[3] != Pad then DecodeBlock(s)
    else if s[2] == Pad then
      match (ValueOf(s[0]), ValueOf(s[1]))
      case (Some(c0), Some(c1)) =>
        if c1 % 16 == 0 then Some([(c0 * 4 + c1 / 16) as byte]) else None
      case _ => None
    else
      match (ValueOf(s[0]), ValueOf(s[1]), ValueOf(s[2]))
      case (Some(c0), Some(c1), Some(c2)) =>
        if c2 % 4 == 0 then Some([(c0 * 4 + c1 / 16) as byte, (c1 % 16 * 16 + c2 / 4) as byte])
        else None
      case _ => None
  }

  /** The bytes whose standard encoding is `s`, if there are any. */
  function Decode(s: string): Option<seq<byte>>
    decreases |s|
  {
    if |s| == 0 then Some([])
    else if |s| < 4 then None
    else if |s| == 4 then DecodeLast(s)
    else
      match DecodeBlock(s[..4])
      case None => None
      case Some(head) =>
        match Decode(s[4..])
        case None => None
        case Some(tail) => Some(head + tail)
  }

  lemma DecodeEncodeBlock(b0: byte, b1: byte, b2: byte)
    ensures DecodeBlock(EncodeBlock(b0, b1, b2)) == Some([b0, b1, b2])
  {
    var x0, x1, x2 := b0 as int, b1 as int, b2 as int;
    var c0, c1, c2, c3 := x0 / 4, x0 % 4 * 16 + x1 / 16, x1 % 16 * 4 + x2 / 64, x2 % 64;
    Ungroup(x0, x1, x2);
    var e := EncodeBlock(b0, b1, b2);
    assert e == [CharOf(c0), CharOf(c1), CharOf(c2), CharOf(c3)];
    ValueOfCharOf(c0);
    ValueOfCharOf(c1);
    ValueOfCharOf(c2);
    ValueOfCharOf(c3);
    assert DecodeBlock(e) == Some([(c0 * 4 + c1 / 16) as byte, (c1 % 16 * 16 + c2 / 4) as byte, (c2 % 4 * 64 + c3) as byte]);
  }

  /** Cutting three bytes into four six-bit groups and regrouping them. */
  lemma Ungroup(x0: int, x1: int, x2: int)
    requires 0 <= x0 < 256 && 0 <= x1 < 256 && 0 <= x2 < 256
    ensures 0 <= x0 / 4 < 64 && 0 <= x0 % 4 * 16 + x1 / 16 < 64
    ensures 0 <= x1 % 16 * 4 + x2 / 64 < 64 && 0 <= x2 % 64 < 64
    ensures x0 / 4 * 4 + (x0 % 4 * 16 + x1 / 16) / 16 == x0
    ensures (x0 % 4 * 16 + x1 / 16) % 16 * 16 + (x1 % 16 * 4 + x2 / 64) / 4 == x1
    ensures (x1 % 16 * 4 + x2 / 64) % 4 * 64 + x2 % 64 == x2
  {
  }

  lemma DecodeEncodeTwo(b0: byte, b1: byte)
    ensures DecodeLast(EncodeTwo(b0, b1)) == Some([b0, b1])
  {
    var x0, x1 := b0 as int, b1 as int;
    var c0, c1, c2 := x0 / 4, x0 % 4 * 16 + x1 / 16, x1 % 16 * 4;
    Ungroup(x0, x1, 0);
    assert c2 % 4 == 0;
    var e := EncodeTwo(b0, b1);
    assert e == [CharOf(c0), CharOf(c1), CharOf(c2), Pad];
    ValueOfCharOf(c0);
    ValueOfCharOf(c1);
    ValueOfCharOf(c2);
    DecodeLastTwo(e, c0, c1, c2);
  }

  /** A final group `xyz=` whose characters have the values `c0`, `c1`, `c2`. */
  lemma DecodeLastTwo(e: string, c0: int, c1: int, c2: int)
    requires |e| == 4 && e[3] == Pad && e[2] != Pad && c2 % 4 == 0
    requires ValueOf(e[0]) == Some(c0) && ValueOf(e[1]) == Some(c1) && ValueOf(e[2]) == Some(c2)
    requires 0 <= c0 * 4 + c1 / 16 < 256 && 0 <= c1 % 16 * 16 + c2 / 4 < 256
    ensures DecodeLast(e) == Some([(c0 * 4 + c1 / 16) as byte, (c1 % 16 * 16 + c2 / 4) as byte])
  {
  }

  lemma DecodeEncodeOne(b0: byte)
    ensures DecodeLast(EncodeOne(b0)) == Some([b0])
  {
    var x0 := b0 as int;
    ValueOfCharOf(x0 / 4);
    ValueOfCharOf(x0 % 4 * 16);
  }

  lemma DecodeEncodeThree(b0: byte, b1: byte, b2: byte)
    ensures Decode(Encode([b0, b1, b2])) == Some([b0, b1, b2])
  {
    var e := EncodeBlock(b0, b1, b2);
    EncodeThree([b0, b1, b2]);
    DecodeFull(e);
    DecodeEncodeBlock(b0, b1, b2);
  }

  lemma EncodeThree(b: seq<byte>)
    requires |b| == 3
    ensures Encode(b) == EncodeBlock(b[0], b[1], b[2])
  {
    assert Encode(b[3..]) == "";
  }

  /** A last group without padding is decoded as a full block. */
  lemma DecodeFull(e: string)
    requires |e| == 4 && IsAlphabetChar(e[3])
    ensures Decode(e) == DecodeBlock(e)
  {
  }

  /** One more full block in front of an encoding that decodes. */
  lemma DecodeEncodeStep(b: seq<byte>)
    requires |b| > 3 && Decode(Encode(b[3..])) == Some(b[3..])
    ensures Decode(Encode(b)) == Some(b)
  {
    SplitBlock(b);
    var head := EncodeBlock(b[0], b[1], b[2]);
    var tail := Encode(b[3..]);
    assert Encode(b) == head + tail;
    DecodeEncodeBlock(b[0], b[1], b[2]);
    DecodeCons(head, tail, [b[0], b[1], b[2]], b[3..]);
  }

  lemma SplitBlock(b: seq<byte>)
    requires |b| >= 3
    ensures b == [b[0], b[1], b[2]] + b[3..]
  {
  }

  /** A leading full block decodes on its own, in front of the rest. */
  lemma DecodeCons(h: string, t: string, x: seq<byte>, y: seq<byte>)
    requires |h| == 4 && |t| >= 4
    requires DecodeBlock(h) == Some(x) && Decode(t) == Some(y)
    ensures Decode(h + t) == Some(x + y)
  {
    assert (h + t)[..4] == h;
    assert (h + t)[4..] == t;
  }

  /** Decoding the standard encoding of any bytes gives the bytes back. */
  lemma {:induction false} DecodeEncode(b: seq<byte>)
    ensures Decode(Encode(b)) == Some(b)
    decreases |b|
  {
    if |b| == 1 {
      DecodeEncodeLengthOne(b);
    } else if |b| == 2 {
      DecodeEncodeLengthTwo(b);
    } else if |b| == 3 {
      DecodeEncodeLengthThree(b);
    } else if |b| > 3 {
      DecodeEncode(b[3..]);
      DecodeEncodeStep(b);
    }
  }

  lemma DecodeEncodeLengthOne(b: seq<byte>)
    requires |b| == 1
    ensures Decode(Encode(b)) == Some(b)
  {
    assert Encode(b) == EncodeOne(b[0]);
    DecodeEncodeOne(b[0]);
    Single(b);
  }

  lemma DecodeEncodeLengthThree(b: seq<byte>)
    requires |b| == 3
    ensures Decode(Encode(b)) == Some(b)
  {
    Triple(b);
    DecodeEncodeThree(b[0], b[1], b[2]);
  }

  lemma DecodeEncodeLengthTwo(b: seq<byte>)
    requires |b| == 2
    ensures Decode(Encode(b)) == Some(b)
  {
    assert Encode(b) == EncodeTwo(b[0], b[1]);
    DecodeEncodeTwo(b[0], b[1]);
    Pair(b);
  }

  /** Four characters for every started group of three bytes. */
  lemma {:induction false} EncodeLength(b: seq<byte>)
    ensures |Encode(b)| == 4 * ((|b| + 2) / 3)
    decreases |b|
  {
    if |b| >= 3 {
      EncodeLength(b[3..]);
      assert (|b| + 2) / 3 == (|b[3..]| + 2) / 3 + 1;
    }
  }

  /** Every character of an encoding is from the alphabet, except `=` in the
      last two positions. */
  lemma {:induction false} EncodeAlphabet(b: seq<byte>)
    ensures forall i :: 0 <= i < |Encode(b)| ==>
              IsAlphabetChar(Encode(b)[i]) || (Encode(b)[i] == Pad && i >= |Encode(b)| - 2)
    decreases |b|
  {
    if |b| >= 3 {
      EncodeAlphabet(b[3..]);
      var head := EncodeBlock(b[0], b[1], b[2]);
      var tail := Encode(b[3..]);
      forall i | 0 <= i < |Encode(b)|
        ensures IsAlphabetChar(Encode(b)[i]) || (Encode(b)[i] == Pad && i >= |Encode(b)| - 2)
      {
        if i >= 4 {
          assert Encode(b)[i] == tail[i - 4];
        }
      }
    }
  }

  /** Regrouping four six-bit values into three bytes and back. */
  lemma Regroup(c0: int, c1: int, c2: int, c3: int)
    requires 0 <= c0 < 64 && 0 <= c1 < 64 && 0 <= c2 < 64 && 0 <= c3 < 64
    ensures (c0 * 4 + c1 / 16) / 4 == c0
    ensures (c0 * 4 + c1 / 16) % 4 * 16 + (c1 % 16 * 16 + c2 / 4) / 16 == c1
    ensures (c1 % 16 * 16 + c2 / 4) % 16 * 4 + (c2 % 4 * 64 + c3) / 64 == c2
    ensures (c2 % 4 * 64 + c3) % 64 == c3
    ensures c1 % 16 == 0 ==> (c0 * 4 + c1 / 16) % 4 * 16 == c1
    ensures c2 % 4 == 0 ==> (c1 % 16 * 16 + c2 / 4) % 16 * 4 == c2
  {
  }

  lemma EncodeDecodeBlock(s: string, x: seq<byte>)
    requires |s| == 4 && DecodeBlock(s) == Some(x)
    ensures |x| == 3 && EncodeBlock(x[0], x[1], x[2]) == s
  {
    var c0, c1, c2, c3 := ValueOf(s[0]).value, ValueOf(s[1]).value, ValueOf(s[2]).value, ValueOf(s[3]).value;
    assert x == [(c0 * 4 + c1 / 16) as byte, (c1 % 16 * 16 + c2 / 4) as byte, (c2 % 4 * 64 + c3) as byte];
    Regroup(c0, c1, c2, c3);
    var x0, x1, x2 := x[0] as int, x[1] as int, x[2] as int;
    assert x0 / 4 == c0 && x0 % 4 * 16 + x1 / 16 == c1;
    assert x1 % 16 * 4 + x2 / 64 == c2 && x2 % 64 == c3;
    assert EncodeBlock(x[0], x[1], x[2]) == [CharOf(c0), CharOf(c1), CharOf(c2), CharOf(c3)];
    assert s == [s[0], s[1], s[2], s[3]];
  }

  lemma EncodeDecodeLast(s: string, x: seq<byte>)
    requires |s| == 4 && DecodeLast(s) == Some(x)
    ensures 1 <= |x| <= 3 && Encode(x) == s
  {
    if s[3] != Pad {
      EncodeDecodeFull(s, x);
    } else if s[2] == Pad {
      EncodeDecodeOnePad(s, x);
    } else {
      EncodeDecodeTwoPad(s, x);
    }
  }

  lemma EncodeDecodeFull(s: string, x: seq<byte>)
    requires |s| == 4 && s[3] != Pad && DecodeBlock(s) == Some(x)
    ensures |x| == 3 && Encode(x) == s
  {
    EncodeDecodeBlock(s, x);
    assert Encode(x[3..]) == "";
    assert Encode(x) == EncodeBlock(x[0], x[1], x[2]) + Encode(x[3..]);
  }

  lemma EncodeDecodeOnePad(s: string, x: seq<byte>)
    requires |s| == 4 && s[3] == Pad && s[2] == Pad && DecodeLast(s) == Some(x)
    ensures |x| == 1 && Encode(x) == s
  {
    var c0, c1 := ValueOf(s[0]).value, ValueOf(s[1]).value;
    assert c1 % 16 == 0 && x == [(c0 * 4 + c1 / 16) as byte];
    Regroup(c0, c1, 0, 0);
    assert Encode(x) == EncodeOne(x[0]);
  }

  lemma EncodeDecodeTwoPad(s: string, x: seq<byte>)
    requires |s| == 4 && s[3] == Pad && s[2] != Pad && DecodeLast(s) == Some(x)
    ensures |x| == 2 && Encode(x) == s
  {
    var c0, c1, c2 := ValueOf(s[0]).value, ValueOf(s[1]).value, ValueOf(s[2]).value;
    assert c2 % 4 == 0 && x == [(c0 * 4 + c1 / 16) as byte, (c1 % 16 * 16 + c2 / 4) as byte];
    Regroup(c0, c1, c2, 0);
    assert Encode(x) == EncodeTwo(x[0], x[1]);
  }

  /** A leading block that decodes to `x` is re-encoded in front of the rest. */
  lemma EncodeDecodeStep(s: string, x: seq<byte>, y: seq<byte>)
    requires |s| > 4 && DecodeBlock(s[..4]) == Some(x) && Decode(s[4..]) == Some(y)
    requires Encode(y) == s[4..] && |y| > 0
    ensures Encode(x + y) == s
  {
    EncodeDecodeBlock(s[..4], x);
    SplitBlock(x + y);
    assert (x + y)[3..] == y;
    assert Encode(x + y) == EncodeBlock(x[0], x[1], x[2]) + Encode(y);
    assert s == s[..4] + s[4..];
  }

  /** Only the standard encoding of `b` decodes to `b`: the decoder accepts no
      other padding, no characters outside the alphabet and no stray low bits. */
  lemma {:induction false} EncodeDecode(s: string)
    requires Decode(s).Some?
    ensures Encode(Decode(s).value) == s
    decreases |s|
  {
    if |s| == 4 {
      EncodeDecodeLast(s, Decode(s).value);
    } else if |s| > 4 {
      var x := DecodeBlock(s[..4]).value;
      var y := Decode(s[4..]).value;
      EncodeDecode(s[4..]);
      assert |y| > 0;
      EncodeDecodeStep(s, x, y);
    }
  }

  // ------------------------------------------------------ test vectors

  /** The test vectors of section 10 of RFC 4648 that fix the bit layout:
      "f", "fo", "foo" and "foobar". */
  lemma RfcVectors()
    ensures Encode([0x66]) == "Zg=="
    ensures Encode([0x66, 0x6f]) == "Zm8="
    ensures Encode([0x66, 0x6f, 0x6f]) == "Zm9v"
    ensures Encode([0x66, 0x6f, 0x6f, 0x62, 0x61, 0x72]) == "Zm9vYmFy"
  {
    VectorF();
    VectorFo();
    VectorFoo();
    VectorFoobar();
  }

  lemma VectorF()
    ensures Encode([0x66]) == "Zg=="
  {
  }

  lemma VectorFo()
    ensures Encode([0x66, 0x6f]) == "Zm8="
  {
  }

  lemma VectorFoo()
    ensures Encode([0x66, 0x6f, 0x6f]) == "Zm9v"
  {
    EncodeThree([0x66, 0x6f, 0x6f]);
    BlockFoo();
  }

  lemma VectorFoobar()
    ensures Encode([0x66, 0x6f, 0x6f, 0x62, 0x61, 0x72]) == "Zm9vYmFy"
  {
    var b: seq<byte> := [0x66, 0x6f, 0x6f, 0x62, 0x61, 0x72];
    EncodeFront(b);
    assert b[3..] == [0x62, 0x61, 0x72];
    EncodeThree(b[3..]);
    BlockFoo();
    BlockBar();
  }

  /** "foo" is 011001 100110 111101 101111 in six-bit groups. */
  lemma BlockFoo()
    ensures EncodeBlock(0x66, 0x6f, 0x6f) == "Zm9v"
  {
    BlockOf(0x66, 0x6f, 0x6f, 25, 38, 61, 47);
    assert CharOf(25) == 'Z' && CharOf(38) == 'm' && CharOf(61) == '9' && CharOf(47) == 'v';
  }

  /** "bar" is 011000 100110 000101 110010 in six-bit groups. */
  lemma BlockBar()
    ensures EncodeBlock(0x62, 0x61, 0x72) == "YmFy"
  {
    BlockOf(0x62, 0x61, 0x72, 24, 38, 5, 50);
    assert CharOf(24) == 'Y' && CharOf(38) == 'm' && CharOf(5) == 'F' && CharOf(50) == 'y';
  }

  /** A full group written through its six-bit values. */
  lemma BlockOf(b0: byte, b1: byte, b2: byte, x0: int, x1: int, x2: int, x3: int)
    requires x0 == b0 as int / 4 && x1 == b0 as int % 4 * 16 + b1 as int / 16
    requires x2 == b1 as int % 16 * 4 + b2 as int / 64 && x3 == b2 as int % 64
    ensures 0 <= x0 < 64 && 0 <= x1 < 64 && 0 <= x2 < 64 && 0 <= x3 < 64
    ensures EncodeBlock(b0, b1, b2) == [CharOf(x0), CharOf(x1), CharOf(x2), CharOf(x3)]
  {
  }

  /** More than three bytes: one full group, then the rest. */
  lemma EncodeFront(b: seq<byte>)
    requires |b| > 3
    ensures Encode(b) == EncodeBlock(b[0], b[1], b[2]) + Encode(b[3..])
  {
  }

  /** The two characters that differ between the standard and the URL-safe
      alphabets: `+` is 62 and `/` is 63. */
  lemma HighValuesVector()
    ensures Encode([0xfb, 0xff]) == "+/8="
  {
  }
}

=== FILE: bindings.dfy ===
/** Workspace resolution: `getWorkspace` in tang_iam_proxy.go.

    The SQL point lookup `SELECT tang_workspace FROM bindings WHERE spiffe_id = ?`
    is abstracted to a map from SPIFFE ID to workspace, together with an
    optional driver failure that makes every query fail (an unreachable
    database, say). */
module Bindings {
  import opened Wrappers
  import opened Strings

  /** The `bindings` table, and the error text of a failing data store, if it fails. */
  datatype Store = Store(rows: map<string, string>, failure: Option<string>)

  /** The two ways `getWorkspace` fails. Both reach the caller as an error;
      only the message tells them apart. */
  datatype LookupError =
    | NoWorkspace(spiffeId: string)                  // `sql.ErrNoRows`
    | QueryFailed(spiffeId: string, cause: string)   // any other driver error
  {
    /** The text of the Go error value. */
    function Message(): (r: string)
      ensures HasPrefix(r, "getWorkspace " + spiffeId + ": ")
    {
      match this
      case NoWorkspace(id) =>
        PrefixOfConcat("getWorkspace " + id + ": ", "no workspace found");
        "getWorkspace " + id + ": " + "no workspace found"
      case QueryFailed(id, cause) =>
        PrefixOfConcat("getWorkspace " + id + ": ", cause);
        "getWorkspace " + id + ": " + cause
    }
  }

  /** `getWorkspace(spiffeId)`. */
  function GetWorkspace(store: Store, spiffeId: string): (r: Result<string, LookupError>)
    ensures r.Ok? <==> store.failure.None? && spiffeId in store.rows
    ensures r.Ok? ==> r.value == store.rows[spiffeId]
    ensures r.Err? ==> r.error.spiffeId == spiffeId
    ensures r.Err? ==> (r.error.NoWorkspace? <==> store.failure.None?)
  {
    match store.failure
    case Some(cause) => Err(QueryFailed(spiffeId, cause))
    case None =>
      if spiffeId in store.rows then Ok(store.rows[spiffeId]) else Err(NoWorkspace(spiffeId))
  }

  /** A missing row and a failed query for the same identity give the same
      message exactly when the driver's error text is "no workspace found". */
  lemma MessagesCoincide(id: string, cause: string)
    ensures NoWorkspace(id).Message() == QueryFailed(id, cause).Message() <==> cause == "no workspace found"
  {
    var p := "getWorkspace " + id + ": ";
    assert NoWorkspace(id).Message() == p + "no workspace found";
    assert QueryFailed(id, cause).Message() == p + cause;
    ConcatCancel(p, "no workspace found", cause);
  }
}

=== FILE: bytes.dfy ===
/** Octets, as Go's `byte`. An integer subrange rather than a bit-vector, so
    the codecs' shifts and masks are stated as division and remainder by
    powers of two. */
module Bytes {
  newtype byte = x: int | 0 <= x < 0x100
}

=== FILE: credentials.dfy ===
/** Upstream credentials: `basicAuth` and `addUserPassword` in tang_iam_proxy.go.

    The proxy authenticates itself to the upstream with HTTP Basic
    authentication (section 2 of RFC 7617): `user ":" password`, as UTF-8
    bytes, in standard padded Base 64, after the scheme name `Basic`. The
    credentials are static configuration, independent of the client. */
module Credentials {
  import opened Wrappers
  import opened Bytes
  import opened Strings
  import Utf8
  import Base64
  import Headers

  /** The fields of `AppData` that `addUserPassword` uses. */
  datatype AppData = AppData(user: string, password: string)

  /** The user-pass string that is encoded: user, colon, password. */
  function UserPass(user: string, password: string): string {
    user + ":" + password
  }

  /** `basicAuth(username, password)`: `base64.StdEncoding.EncodeToString([]byte(user + ":" + password))`.
      The result is never empty: the colon alone takes a full group. */
  function BasicAuth(user: string, password: string): (r: string)
    ensures |r| >= 4
  {
    Utf8.EncodeBounds(UserPass(user, password));
    Base64.Encode(Utf8.Encode(UserPass(user, password)))
  }

  /** The `Authorization` header value that `addUserPassword` adds: the scheme
      `Basic `, then the credentials. */
  function AuthorizationValue(data: AppData): (r: string)
    ensures HasPrefix(r, "Basic ") && |r| >= 10
  {
    PrefixOfConcat("Basic ", BasicAuth(data.user, data.password));
    "Basic " + BasicAuth(data.user, data.password)
  }

  /** `addUserPassword(req, audata)`, on the request's header map. */
  function AddUserPassword(h: Headers.Header, data: AppData): (r: Headers.Header)
    ensures Headers.Values(r, "Authorization") == Headers.Values(h, "Authorization") + [AuthorizationValue(data)]
    ensures forall k :: k != "Authorization" ==> Headers.Values(r, k) == Headers.Values(h, k)
  {
    Headers.Add(h, "Authorization", AuthorizationValue(data))
  }

  /** The encoded credentials are well-formed standard Base 64: four characters
      per started group of three bytes, alphabet characters, and `=` only as
      padding in the last two positions. */
  lemma BasicAuthShape(user: string, password: string)
    ensures |BasicAuth(user, password)| == 4 * ((|Utf8.Encode(UserPass(user, password))| + 2) / 3)
    ensures forall i :: 0 <= i < |BasicAuth(user, password)| ==>
              Base64.IsAlphabetChar(BasicAuth(user, password)[i])
              || (BasicAuth(user, password)[i] == Base64.Pad && i >= |BasicAuth(user, password)| - 2)
  {
    BasicAuthLength(user, password);
    BasicAuthAlphabet(user, password);
  }

  lemma BasicAuthLength(user: string, password: string)
    ensures |BasicAuth(user, password)| == 4 * ((|Utf8.Encode(UserPass(user, password))| + 2) / 3)
  {
    Base64.EncodeLength(Utf8.Encode(UserPass(user, password)));
  }

  lemma BasicAuthAlphabet(user: string, password: string)
    ensures forall i :: 0 <= i < |BasicAuth(user, password)| ==>
              Base64.IsAlphabetChar(BasicAuth(user, password)[i])
              || (BasicAuth(user, password)[i] == Base64.Pad && i >= |BasicAuth(user, password)| - 2)
  {
    Base64.EncodeAlphabet(Utf8.Encode(UserPass(user, password)));
  }

  /** For ASCII credentials the encoding covers `|user| + 1 + |password|` bytes. */
  lemma BasicAuthAsciiLength(user: string, password: string)
    requires forall i :: 0 <= i < |user| ==> (user[i] as int) < 0x80
    requires forall i :: 0 <= i < |password| ==> (password[i] as int) < 0x80
    ensures |BasicAuth(user, password)| == 4 * ((|user| + |password| + 3) / 3)
  {
    var s := UserPass(user, password);
    forall i | 0 <= i < |s| ensures (s[i] as int) < 0x80 {
      if i < |user| {
        assert s[i] == user[i];
      } else if i > |user| {
        assert s[i] == password[i - |user| - 1];
      }
    }
    Utf8.EncodeAscii(s);
    Base64.EncodeLength(Utf8.Encode(s));
  }

  /** Decoding the credentials gives back the user-pass string. */
  lemma BasicAuthDecodes(user: string, password: string)
    ensures Base64.Decode(BasicAuth(user, password)) == Some(Utf8.Encode(UserPass(user, password)))
    ensures Utf8.Decode(Utf8.Encode(UserPass(user, password))) == Some(UserPass(user, password))
  {
    Base64.DecodeEncode(Utf8.Encode(UserPass(user, password)));
    Utf8.DecodeEncode(UserPass(user, password));
  }

  /** How an upstream reads a Basic `Authorization` value: drop the scheme,
      decode Base 64 and UTF-8, split at the first colon. */
  function ParseAuthorization(value: string): Option<(string, string)> {
    if !HasPrefix(value, "Basic ") then None
    else
      match Base64.Decode(value[6..])
      case None => None
      case Some(bytes) =>
        match Utf8.Decode(bytes)
        case None => None
        case Some(s) =>
          match Index(s, ":")
          case None => None
          case Some(i) => Some((s[..i], s[i + 1..]))
  }

  lemma FirstColon(user: string, password: string)
    requires ':' !in user
    ensures Index(UserPass(user, password), ":") == Some(|user|)
  {
    var s := UserPass(user, password);
    assert s[|user|..|user| + 1] == ":";
    forall j | 0 <= j < |user| ensures !OccursAt(s, ":", j) {
      assert s[j] == user[j];
    }
    IndexFromFirst(s, ":", 0, |user|);
  }

  /** The header `addUserPassword` adds carries the configured credentials:
      an upstream recovers user and password, as long as the user name has no
      colon (section 2 of RFC 7617 forbids one). */
  lemma ParseAuthorizationValue(data: AppData)
    requires ':' !in data.user
    ensures ParseAuthorization(AuthorizationValue(data)) == Some((data.user, data.password))
  {
    var v := AuthorizationValue(data);
    assert v[..6] == "Basic ";
    assert v[6..] == BasicAuth(data.user, data.password);
    BasicAuthDecodes(data.user, data.password);
    FirstColon(data.user, data.password);
    var s := UserPass(data.user, data.password);
    assert s[..|data.user|] == data.user;
    assert s[|data.user| + 1..] == data.password;
  }

  /** A colon in the user name is not caught: user "a:b" with password "c"
      and user "a" with password "b:c" send the same header. */
  lemma ColonInUserIsAmbiguous()
    ensures AuthorizationValue(AppData("a:b", "c")) == AuthorizationValue(AppData("a", "b:c"))
  {
    assert UserPass("a:b", "c") == UserPass("a", "b:c");
  }
}

=== FILE: headers.dfy ===
/** Go's `http.Header`: each key maps to a list of values. */
module Headers {

  type Header = map<string, seq<string>>

  /** All values of `key`, in the order they were added; none if it is absent. */
  function Values(h: Header, key: string): seq<string> {
    if key in h then h[key] else []
  }

  /** `h.Get(key)`: the first value, or `""` when the key has none. */
  function Get(h: Header, key: string): (r: string)
    ensures r in Values(h, key) || (r == "" && |Values(h, key)| == 0)
    ensures |Values(h, key)| > 0 ==> Values(h, key) == [r] + Values(h, key)[1..]
  {
    if |Values(h, key)| == 0 then "" else Values(h, key)[0]
  }

  /** `h.Add(key, value)`: append `value` to the values of `key`, keeping the
      ones already there and every other key. */
  function Add(h: Header, key: string, value: string): (r: Header)
    ensures Values(r, key) == Values(h, key) + [value]
    ensures forall k :: k != key ==> Values(r, k) == Values(h, k)
    ensures r.Keys == h.Keys + {key}
  {
    h[key := Values(h, key) + [value]]
  }

  /** An added value is only seen by `Get` when the key had no value before:
      `Add` never replaces what the client sent. */
  lemma GetAfterAdd(h: Header, key: string, value: string)
    ensures Get(Add(h, key, value), key) == if |Values(h, key)| == 0 then value else Get(h, key)
  {
  }
}

=== FILE: identity.dfy ===
/** Identity extraction: `getSpiffeId` in tang_iam_proxy.go.

    A peer certificate is abstracted to the URI entries of its Subject
    Alternative Name extension (section 4.2.1.6 of RFC 5280), in the order the
    certificate lists them, each rendered as `url.URL.String()` renders it. The
    server asks for a client certificate but does not verify its chain
    (`tls.RequireAnyClientCert`), so the chain here is whatever the client
    presented, and the proxy trusts the URI it finds in it. */
module Identity {
  import opened Wrappers
  import opened Strings

  type Uri = string

  /** One certificate of the peer chain, reduced to its SAN URIs. */
  datatype Certificate = Certificate(uris: seq<Uri>)

  /** The peer chain, leaf first, as the TLS connection state presents it. */
  type Chain = seq<Certificate>

  const SpiffeScheme: string := "spiffe://"

  /** A URI the proxy accepts as a SPIFFE identity: it starts with `spiffe://`;
      nothing else about its structure is checked. */
  predicate IsSpiffeId(u: Uri) {
    HasPrefix(u, SpiffeScheme)
  }

  /** `getSpiffeId`'s only failure, "getSpiffeId: no spiffeId found". */
  datatype IdentityError = NoSpiffeId

  /** The inner loop of `getSpiffeId`: the first SPIFFE URI of a list of URIs. */
  function FirstSpiffeUri(uris: seq<Uri>): (r: Option<Uri>)
    ensures r.Some? ==> IsSpiffeId(r.value) && r.value in uris
    ensures r.None? <==> forall j :: 0 <= j < |uris| ==> !IsSpiffeId(uris[j])
  {
    if |uris| == 0 then None
    else if IsSpiffeId(uris[0]) then Some(uris[0])
    else FirstSpiffeUri(uris[1..])
  }

  /** `getSpiffeId`: scan the certificates in chain order and, within each, the
      URIs in SAN order; return the first SPIFFE URI, or fail. */
  function GetSpiffeId(chain: Chain): (r: Result<Uri, IdentityError>)
    ensures r.Ok? ==> IsSpiffeId(r.value)
  {
    if |chain| == 0 then Err(NoSpiffeId)
    else
      match FirstSpiffeUri(chain[0].uris)
      case Some(u) => Ok(u)
      case None => GetSpiffeId(chain[1..])
  }

  /** Position `(i, j)` holds a SPIFFE URI and no earlier position does, in
      certificate order and then SAN order. */
  predicate FirstSpiffeAt(chain: Chain, i: int, j: int) {
    && 0 <= i < |chain| && 0 <= j < |chain[i].uris|
    && IsSpiffeId(chain[i].uris[j])
    && (forall k, l :: 0 <= k < i && 0 <= l < |chain[k].uris| ==> !IsSpiffeId(chain[k].uris[l]))
    && (forall l :: 0 <= l < j ==> !IsSpiffeId(chain[i].uris[l]))
  }

  /** No certificate of the chain carries a SPIFFE URI. */
  predicate NoSpiffeUri(chain: Chain) {
    forall k, l :: 0 <= k < |chain| && 0 <= l < |chain[k].uris| ==> !IsSpiffeId(chain[k].uris[l])
  }

  lemma {:induction false} FirstSpiffeUriAt(uris: seq<Uri>, j: nat)
    requires j < |uris| && IsSpiffeId(uris[j])
    requires forall l :: 0 <= l < j ==> !IsSpiffeId(uris[l])
    ensures FirstSpiffeUri(uris) == Some(uris[j])
  {
    if j > 0 {
      FirstSpiffeUriAt(uris[1..], j - 1);
    }
  }

  /** The URI at the first SPIFFE position is what `getSpiffeId` returns. */
  lemma {:induction false} GetSpiffeIdAt(chain: Chain, i: nat, j: nat)
    requires FirstSpiffeAt(chain, i, j)
    ensures GetSpiffeId(chain) == Ok(chain[i].uris[j])
  {
    if i == 0 {
      FirstSpiffeUriAt(chain[0].uris, j);
    } else {
      assert FirstSpiffeUri(chain[0].uris).None?;
      assert FirstSpiffeAt(chain[1..], i - 1, j);
      GetSpiffeIdAt(chain[1..], i - 1, j);
    }
  }

  /** `getSpiffeId` fails exactly when no certificate carries a SPIFFE URI,
      which includes the empty chain. */
  lemma {:induction false} GetSpiffeIdFails(chain: Chain)
    ensures GetSpiffeId(chain).Err? <==> NoSpiffeUri(chain)
  {
    if |chain| > 0 {
      GetSpiffeIdFails(chain[1..]);
      if FirstSpiffeUri(chain[0].uris).None? {
        assert NoSpiffeUri(chain) <==> NoSpiffeUri(chain[1..]) by {
          if NoSpiffeUri(chain[1..]) {
            forall k, l | 0 <= k < |chain| && 0 <= l < |chain[k].uris|
              ensures !IsSpiffeId(chain[k].uris[l])
            {
              if k > 0 {
                assert chain[k] == chain[1..][k - 1];
              }
            }
          }
        }
      }
    }
  }

  /** A successful `getSpiffeId` returns the URI at some first SPIFFE position. */
  lemma {:induction false} GetSpiffeIdFound(chain: Chain)
    requires GetSpiffeId(chain).Ok?
    ensures exists i, j :: FirstSpiffeAt(chain, i, j) && chain[i].uris[j] == GetSpiffeId(chain).value
  {
    GetSpiffeIdFails(chain);
    assert !NoSpiffeUri(chain);
    var i, j :| 0 <= i < |chain| && 0 <= j < |chain[i].uris| && IsSpiffeId(chain[i].uris[j]);
    var i0, j0 := EarliestSpiffe(chain, i, j);
    GetSpiffeIdAt(chain, i0, j0);
  }

  /** From any SPIFFE position, the earliest one. */
  lemma {:induction false} EarliestSpiffe(chain: Chain, i: nat, j: nat) returns (i0: nat, j0: nat)
    requires i < |chain| && j < |chain[i].uris| && IsSpiffeId(chain[i].uris[j])
    ensures FirstSpiffeAt(chain, i0, j0)
    decreases i, j
  {
    if exists k, l :: 0 <= k < i && 0 <= l < |chain[k].uris| && IsSpiffeId(chain[k].uris[l]) {
      var k, l :| 0 <= k < i && 0 <= l < |chain[k].uris| && IsSpiffeId(chain[k].uris[l]);
      i0, j0 := EarliestSpiffe(chain, k, l);
    } else if exists l :: 0 <= l < j && IsSpiffeId(chain[i].uris[l]) {
      var l :| 0 <= l < j && IsSpiffeId(chain[i].uris[l]);
      i0, j0 := EarliestSpiffe(chain, i, l);
    } else {
      i0, j0 := i, j;
    }
  }

  /** All SAN URIs of the chain, certificate after certificate. */
  function AllUris(chain: Chain): seq<Uri> {
    if |chain| == 0 then [] else chain[0].uris + AllUris(chain[1..])
  }

  lemma {:induction false} FirstSpiffeUriAppend(a: seq<Uri>, b: seq<Uri>)
    ensures FirstSpiffeUri(a + b) == if FirstSpiffeUri(a).Some? then FirstSpiffeUri(a) else FirstSpiffeUri(b)
  {
    if |a| == 0 {
      assert a + b == b;
    } else {
      assert (a + b)[0] == a[0];
      assert (a + b)[1..] == a[1..] + b;
      FirstSpiffeUriAppend(a[1..], b);
    }
  }

  /** The nested scan of `getSpiffeId` is a single scan of all the chain's URIs
      in order: the certificate boundaries do not matter. */
  lemma {:induction false} GetSpiffeIdIsFlatScan(chain: Chain)
    ensures GetSpiffeId(chain) == match FirstSpiffeUri(AllUris(chain))
                                  case Some(u) => Ok(u)
                                  case None => Err(NoSpiffeId)
  {
    if |chain| > 0 {
      FirstSpiffeUriAppend(chain[0].uris, AllUris(chain[1..]));
      GetSpiffeIdIsFlatScan(chain[1..]);
    }
  }
}

=== FILE: proxy.dfy ===
/** The request handler `SimpleProxy.ServeHTTP` in tang_iam_proxy.go, as a
    pure function from the connection's peer chain, the binding store, the
    incoming request and the proxy's configuration to the request that is
    handed to the reverse proxy, together with the stages the handler went
    through.

    `ServeHTTP` models the code as written: after calling `http.Error` for a
    missing identity or workspace it does not return, so both lookups always run and
    the request is always rewritten and forwarded. `ServeChecked` is the
    handler with the early returns the error branches evidently intend. */
module Proxy {
  import opened Wrappers
  import opened Strings
  import opened Identity
  import opened Bindings
  import opened Headers
  import opened Credentials

  /** `EE_URL`, the well-known path after which the workspace is inserted. */
  const EeUrl: string := "/api/dee-hms/"

  /** The scheme prefix stripped from the configured target. */
  const HttpsPrefix: string := "https://"

  /** The parts of an `http.Request` the handler reads or writes. */
  datatype Request = Request(
    path: string,      // r.URL.Path
    scheme: string,    // r.URL.Scheme
    urlHost: string,   // r.URL.Host
    host: string,      // r.Host
    header: Header)    // r.Header

  /** `SimpleProxy` without its `httputil.ReverseProxy`: the credentials and
      the target host, `"https://" + tangServer` when built by `main`. */
  datatype SimpleProxy = SimpleProxy(appData: AppData, targetHost: string)

  /** What the handler did, in order. Each rejection stage stands for an
      `http.Error(w, "not authorized!!", 401)`. */
  datatype Stage =
    | Identified(spiffeId: string)
    | Unauthenticated
    | Resolved(workspace: string)
    | Unauthorized(error: LookupError)
    | Rewritten
    | Dispatched

  /** The request as passed to `s.Proxy.ServeHTTP` (or as received, when the
      handler stopped before rewriting) and the stages reached. */
  datatype Exchange = Exchange(request: Request, trace: seq<Stage>)

  /** The request reached the upstream. */
  predicate Forwarded(x: Exchange) {
    Dispatched in x.trace
  }

  /** The stages that called `http.Error`. net/http sends only the first
      status line; a second call adds its body text to the same response. */
  function Rejections(trace: seq<Stage>): nat {
    if |trace| == 0 then 0
    else (if trace[0].Unauthenticated? || trace[0].Unauthorized? then 1 else 0) + Rejections(trace[1..])
  }

  /** Lines 169-177: insert the workspace after `EE_URL` when the path contains
      it anywhere, removing every occurrence of it from the path; otherwise
      make the workspace the first path segment. */
  function RewritePath(path: string, workspace: string): (r: string)
    ensures Contains(path, EeUrl) ==>
              HasPrefix(r, EeUrl + workspace + "/") && r[|EeUrl| + |workspace| + 1..] == ReplaceAll(path, EeUrl, "")
    ensures !Contains(path, EeUrl) ==>
              HasPrefix(r, "/" + workspace) && r[|workspace| + 1..] == path
  {
    if Contains(path, EeUrl) then
      PrefixOfConcat(EeUrl + workspace + "/", ReplaceAll(path, EeUrl, ""));
      EeUrl + workspace + "/" + ReplaceAll(path, EeUrl, "")
    else
      PrefixOfConcat("/" + workspace, path);
      "/" + workspace + path
  }

  /** Line 179: the target host with every `"https://"` removed. It never
      grows, and a host without `"https://"` is kept as it is. */
  function StripHttps(targetHost: string): (r: string)
    ensures |r| <= |targetHost|
    ensures !Contains(targetHost, HttpsPrefix) ==> r == targetHost
  {
    ReplaceAllLength(targetHost, HttpsPrefix, "");
    ReplaceAll(targetHost, HttpsPrefix, "")
  }

  /** Lines 168-188: the rewrite of the request for a resolved workspace. */
  function Rewrite(p: SimpleProxy, r: Request, workspace: string): (out: Request)
    ensures out.path == RewritePath(r.path, workspace)
    ensures out.scheme == "https"
    ensures out.urlHost == StripHttps(p.targetHost) && out.host == out.urlHost
    ensures Values(out.header, "Authorization") == Values(r.header, "Authorization") + [AuthorizationValue(p.appData)]
    ensures Values(out.header, "Host") == Values(r.header, "Host") + [out.host]
    ensures forall k :: k != "Authorization" && k != "Host" ==> Values(out.header, k) == Values(r.header, k)
  {
    var withAuth := AddUserPassword(r.header, p.appData);
    var target := StripHttps(p.targetHost);
    Request(RewritePath(r.path, workspace), "https", target, target, Add(withAuth, "Host", target))
  }

  /** `ServeHTTP` as written (lines 152-201). Errors call `http.Error` but
      processing continues: a missing identity is looked up as `""`, a failed
      lookup yields the workspace `""`, and the request is always forwarded. */
  function ServeHTTP(p: SimpleProxy, chain: Chain, store: Store, r: Request): (e: Exchange)
    ensures Forwarded(e) && |e.trace| == 4
    ensures e.trace[0] == Unauthenticated <==> GetSpiffeId(chain).Err?
    ensures e.trace[1].Unauthorized? <==> GetWorkspace(store, GetSpiffeId(chain).GetOr("")).Err?
  {
    var identity := GetSpiffeId(chain);
    var spiffeId := identity.GetOr("");
    var lookup := GetWorkspace(store, spiffeId);
    var workspace := lookup.GetOr("");
    var first := if identity.Ok? then Identified(spiffeId) else Unauthenticated;
    var second := if lookup.Ok? then Resolved(workspace) else Unauthorized(lookup.error);
    Exchange(Rewrite(p, r, workspace), [first, second, Rewritten, Dispatched])
  }

  /** `ServeHTTP` with a `return` after each `http.Error`. */
  function ServeChecked(p: SimpleProxy, chain: Chain, store: Store, r: Request): (e: Exchange)
    ensures Forwarded(e) <==> GetSpiffeId(chain).Ok? && GetWorkspace(store, GetSpiffeId(chain).value).Ok?
    ensures !Forwarded(e) ==> e.request == r
  {
    match GetSpiffeId(chain)
    case Err(_) => Exchange(r, [Unauthenticated])
    case Ok(spiffeId) =>
      match GetWorkspace(store, spiffeId)
      case Err(e) => Exchange(r, [Identified(spiffeId), Unauthorized(e)])
      case Ok(workspace) =>
        Exchange(Rewrite(p, r, workspace), [Identified(spiffeId), Resolved(workspace), Rewritten, Dispatched])
  }

  // ---------------------------------------------------------------- paths

  /** A path containing `EE_URL` becomes `EE_URL`, the workspace, a slash, and
      the path with every `EE_URL` removed: each removal shortens it by
      `|EE_URL|`. */
  lemma RewritePathPivot(path: string, workspace: string)
    requires Contains(path, EeUrl)
    ensures HasPrefix(RewritePath(path, workspace), EeUrl + workspace + "/")
    ensures RewritePath(path, workspace)[|EeUrl| + |workspace| + 1..] == ReplaceAll(path, EeUrl, "")
    ensures |RewritePath(path, workspace)| + Count(path, EeUrl) * |EeUrl| == |EeUrl| + |workspace| + 1 + |path|
  {
    var head := EeUrl + workspace + "/";
    var out := RewritePath(path, workspace);
    assert out == head + ReplaceAll(path, EeUrl, "");
    assert out[..|head|] == head;
    ReplaceAllLength(path, EeUrl, "");
  }

  /** The case the pivot rule is meant for: a path that starts with `EE_URL`
      and has no second one gets the workspace right after `EE_URL`, and the
      rest of the path is kept as it is. */
  lemma RewritePathAfterPivot(rest: string, workspace: string)
    requires !Contains(rest, EeUrl)
    ensures RewritePath(EeUrl + rest, workspace) == EeUrl + workspace + "/" + rest
  {
    PrefixContains(EeUrl, rest);
    ReplaceAllPrefix(EeUrl, rest, "");
    ReplaceAllAbsent(rest, EeUrl, "");
  }

  lemma PrefixContains(p: string, t: string)
    ensures Contains(p + t, p)
  {
    assert (p + t)[0..|p|] == p;
    ContainsIff(p + t, p);
  }

  /** A path without `EE_URL` gets the workspace as a new first segment: the
      original path follows `"/" + workspace` unchanged. */
  lemma RewritePathPlain(path: string, workspace: string)
    requires !Contains(path, EeUrl)
    ensures HasPrefix(RewritePath(path, workspace), "/" + workspace)
    ensures RewritePath(path, workspace)[|workspace| + 1..] == path
    ensures |RewritePath(path, workspace)| == |path| + |workspace| + 1
  {
    var out := RewritePath(path, workspace);
    assert out == "/" + workspace + path;
    assert out[..|workspace| + 1] == "/" + workspace;
  }

  /** The two routing shapes on sample paths, with this proxy's `EE_URL`. */
  lemma RewritePathExamples()
    ensures RewritePath("/api/dee-hms/foo/bar", "w1") == "/api/dee-hms/w1/foo/bar"
    ensures RewritePath("/foo/bar", "w1") == "/w1/foo/bar"
  {
    RewritePathPivotExample();
    RewritePathPlainExample();
  }

  lemma RewritePathPivotExample()
    ensures RewritePath("/api/dee-hms/foo/bar", "w1") == "/api/dee-hms/w1/foo/bar"
  {
    ShortNotContains("foo/bar", EeUrl);
    assert "/api/dee-hms/foo/bar" == EeUrl + "foo/bar";
    RewritePathAfterPivot("foo/bar", "w1");
  }

  lemma RewritePathPlainExample()
    ensures RewritePath("/foo/bar", "w1") == "/w1/foo/bar"
  {
    ShortNotContains("/foo/bar", EeUrl);
  }

  /** `EE_URL` is found anywhere, not only at the start: the text before its
      first occurrence is moved behind the workspace and glued to the text
      after it. */
  lemma RewritePathMovesPrefix(a: string, rest: string, workspace: string)
    requires forall j :: 0 <= j < |a| ==> !OccursAt(a + EeUrl + rest, EeUrl, j)
    requires !Contains(rest, EeUrl)
    ensures RewritePath(a + EeUrl + rest, workspace) == EeUrl + workspace + "/" + (a + rest)
  {
    var path := a + EeUrl + rest;
    assert path[|a|..|a| + |EeUrl|] == EeUrl;
    assert OccursAt(path, EeUrl, |a|);
    ContainsIff(path, EeUrl);
    RemovePivot(a, rest);
  }

  /** Removing the first pivot, when the rest holds none, joins the two sides. */
  lemma RemovePivot(a: string, rest: string)
    requires forall j :: 0 <= j < |a| ==> !OccursAt(a + EeUrl + rest, EeUrl, j)
    requires !Contains(rest, EeUrl)
    ensures ReplaceAll(a + EeUrl + rest, EeUrl, "") == a + rest
  {
    var path := a + EeUrl + rest;
    assert path[|a|..|a| + |EeUrl|] == EeUrl;
    ReplaceAllFirstAt(path, EeUrl, "", |a|);
    assert path[..|a|] == a;
    assert path[|a| + |EeUrl|..] == rest;
    ReplaceAllAbsent(rest, EeUrl, "");
  }

  /** For example, `/v1/api/dee-hms/keys` is routed to `/api/dee-hms/w1//v1keys`. */
  lemma RewritePathMidPivot()
    ensures RewritePath("/v1" + EeUrl + "keys", "w1") == EeUrl + "w1" + "/" + "/v1keys"
  {
    var path := "/v1" + EeUrl + "keys";
    assert !OccursAt(path, EeUrl, 0) by { assert path[1] != EeUrl[1]; }
    assert !OccursAt(path, EeUrl, 1) by { assert path[1] != EeUrl[0]; }
    assert !OccursAt(path, EeUrl, 2) by { assert path[2] != EeUrl[0]; }
    ShortNotContains("keys", EeUrl);
    RewritePathMovesPrefix("/v1", "keys", "w1");
  }

  // ----------------------------------------------------------------- hosts

  /** `main` builds the target as `"https://" + tangServer`; stripping gives
      back the server's `host:port` as long as it does not itself contain
      `"https://"`. */
  lemma StripHttpsOfTarget(server: string)
    requires !Contains(server, HttpsPrefix)
    ensures StripHttps(HttpsPrefix + server) == server
  {
    ReplaceAllPrefix(HttpsPrefix, server, "");
    ReplaceAllAbsent(server, HttpsPrefix, "");
  }

  /** One pass of `ReplaceAll` can leave an `"https://"` behind: removing the
      inner one joins the text around it into a new one. */
  lemma StripHttpsCanLeaveScheme()
    ensures StripHttps("ht" + HttpsPrefix + "tps://x") == "https://x"
  {
    var t := "ht" + HttpsPrefix + "tps://x";
    assert t[2..10] == HttpsPrefix;
    assert OccursAt(t, HttpsPrefix, 2);
    assert !OccursAt(t, HttpsPrefix, 0) by { assert t[2] != HttpsPrefix[2]; }
    assert !OccursAt(t, HttpsPrefix, 1) by { assert t[1] != HttpsPrefix[0]; }
    ReplaceAllFirstAt(t, HttpsPrefix, "", 2);
    assert t[..2] == "ht";
    assert t[10..] == "tps://x";
    ShortNotContains("tps://x", HttpsPrefix);
    ReplaceAllAbsent("tps://x", HttpsPrefix, "");
  }

  /** Since the credentials are appended, a client that sends its own
      `Authorization` header keeps it in first place: `Header.Get` upstream
      returns the client's value, not the configured one. Without one, it
      returns the configured credentials. */
  lemma RewriteAuthorizationSeenUpstream(p: SimpleProxy, r: Request, workspace: string)
    ensures |Values(r.header, "Authorization")| > 0 ==>
              Get(Rewrite(p, r, workspace).header, "Authorization") == Get(r.header, "Authorization")
    ensures |Values(r.header, "Authorization")| == 0 ==>
              Get(Rewrite(p, r, workspace).header, "Authorization") == AuthorizationValue(p.appData)
  {
    var out := Rewrite(p, r, workspace);
    assert Values(out.header, "Authorization") == Values(r.header, "Authorization") + [AuthorizationValue(p.appData)];
  }

  // --------------------------------------------------------------- handler

  /** The workspace a request is forwarded into, read off the certificate
      chain and the `bindings` table: the row of the first SPIFFE URI, or of
      `""` when there is none, and `""` when that row is missing or the query
      fails. */
  lemma ServeHTTPForwardedWorkspace(p: SimpleProxy, chain: Chain, store: Store, r: Request)
    ensures NoSpiffeUri(chain) ==>
              ServeHTTP(p, chain, store, r).request
              == Rewrite(p, r, if store.failure.None? && "" in store.rows then store.rows[""] else "")
    ensures forall i, j :: FirstSpiffeAt(chain, i, j) ==>
              var id := chain[i].uris[j];
              ServeHTTP(p, chain, store, r).request
              == Rewrite(p, r, if store.failure.None? && id in store.rows then store.rows[id] else "")
  {
    GetSpiffeIdFails(chain);
    forall i, j | FirstSpiffeAt(chain, i, j)
      ensures var id := chain[i].uris[j];
              ServeHTTP(p, chain, store, r).request
              == Rewrite(p, r, if store.failure.None? && id in store.rows then store.rows[id] else "")
    {
      GetSpiffeIdAt(chain, i, j);
    }
  }

  /** The missing `return` (lines 157-165): a client without a SPIFFE identity
      gets `http.Error` called, and then its request is still looked up under the
      identity `""` and forwarded upstream. */
  lemma UnauthenticatedIsForwarded(p: SimpleProxy, chain: Chain, store: Store, r: Request)
    requires NoSpiffeUri(chain)
    ensures ServeHTTP(p, chain, store, r).trace[0] == Unauthenticated
    ensures Forwarded(ServeHTTP(p, chain, store, r))
    ensures ServeHTTP(p, chain, store, r).request.path == RewritePath(r.path, GetWorkspace(store, "").GetOr(""))
  {
    GetSpiffeIdFails(chain);
  }

  /** Concretely: no certificate, an empty binding table. `http.Error` is called
      twice and the request still goes upstream, to the path `"/" + "" + path`. */
  lemma UnauthenticatedExample(p: SimpleProxy, r: Request)
    requires r.path == "/keys"
    ensures ServeHTTP(p, [], Store(map[], None), r).trace
            == [Unauthenticated, Unauthorized(NoWorkspace("")), Rewritten, Dispatched]
    ensures Rejections(ServeHTTP(p, [], Store(map[], None), r).trace) == 2
    ensures ServeHTTP(p, [], Store(map[], None), r).request.path == "//keys"
  {
    ShortNotContains("/keys", EeUrl);
    var t := ServeHTTP(p, [], Store(map[], None), r).trace;
    assert t[1..] == [Unauthorized(NoWorkspace("")), Rewritten, Dispatched];
    assert t[1..][1..] == [Rewritten, Dispatched];
    assert t[1..][1..][1..] == [Dispatched];
    assert t[1..][1..][1..][1..] == [];
    assert Rejections(t[1..][1..][1..]) == 0;
    assert Rejections(t[1..][1..]) == 0;
    assert Rejections(t[1..]) == 1;
  }

  /** If the table happens to bind the empty identity, an unauthenticated
      client is routed into that workspace. */
  lemma UnauthenticatedReachesBoundWorkspace(p: SimpleProxy, chain: Chain, ws: string, r: Request)
    requires NoSpiffeUri(chain) && !Contains(r.path, EeUrl)
    ensures ServeHTTP(p, chain, Store(map["" := ws], None), r).request.path == "/" + ws + r.path
    ensures Forwarded(ServeHTTP(p, chain, Store(map["" := ws], None), r))
  {
    GetSpiffeIdFails(chain);
  }

  /** A rejected request is left as received, and `http.Error` is called
      exactly once, as the last stage. */
  lemma ServeCheckedRejects(p: SimpleProxy, chain: Chain, store: Store, r: Request)
    requires !Forwarded(ServeChecked(p, chain, store, r))
    ensures ServeChecked(p, chain, store, r).request == r
    ensures Rejections(ServeChecked(p, chain, store, r).trace) == 1
    ensures var t := ServeChecked(p, chain, store, r).trace;
            |t| > 0 && (t[|t| - 1].Unauthenticated? || t[|t| - 1].Unauthorized?)
  {
    var t := ServeChecked(p, chain, store, r).trace;
    if GetSpiffeId(chain).Ok? {
      assert t == [Identified(GetSpiffeId(chain).value), t[1]];
      assert t[1..] == [t[1]];
    }
  }

  /** Without an identity the store is never consulted: the outcome is the
      same whatever the store holds. */
  lemma ServeCheckedIgnoresStoreWithoutIdentity(p: SimpleProxy, chain: Chain, s1: Store, s2: Store, r: Request)
    requires NoSpiffeUri(chain)
    ensures ServeChecked(p, chain, s1, r) == ServeChecked(p, chain, s2, r) == Exchange(r, [Unauthenticated])
  {
    GetSpiffeIdFails(chain);
  }

  /** On the path where both lookups succeed, the corrected handler does
      exactly what the handler as written does. */
  lemma ServeCheckedAgreesWhenAuthorized(p: SimpleProxy, chain: Chain, store: Store, r: Request)
    requires GetSpiffeId(chain).Ok? && GetWorkspace(store, GetSpiffeId(chain).value).Ok?
    ensures ServeChecked(p, chain, store, r) == ServeHTTP(p, chain, store, r)
  {
  }

  /** A forwarded request carries the bound workspace in its path, the
      upstream host, one more `Authorization` value with the configured
      credentials, and one more `Host` value; no other header changes. */
  lemma ServeCheckedForwardedRequest(p: SimpleProxy, chain: Chain, store: Store, r: Request)
    requires Forwarded(ServeChecked(p, chain, store, r))
    ensures var id := GetSpiffeId(chain).value;
            var ws := GetWorkspace(store, id).value;
            var out := ServeChecked(p, chain, store, r).request;
            && ws == store.rows[id]
            && out.path == RewritePath(r.path, ws)
            && out.scheme == "https"
            && out.urlHost == out.host == StripHttps(p.targetHost)
            && Values(out.header, "Authorization") == Values(r.header, "Authorization") + [AuthorizationValue(p.appData)]
            && Values(out.header, "Host") == Values(r.header, "Host") + [out.host]
            && (forall k :: k != "Authorization" && k != "Host" ==> Values(out.header, k) == Values(r.header, k))
  {
  }
}

=== FILE: seqs.dfy ===
/** Small identities on sequences, shared by the codecs' proofs. */
module Seqs {
  /** Dropping a prefix of the concatenation leaves the second part. */
  lemma DropFront<T>(a: seq<T>, b: seq<T>)
    ensures (a + b)[|a|..] == b
  {
  }

  lemma HeadTail<T>(s: seq<T>)
    requires |s| > 0
    ensures s == [s[0]] + s[1..]
  {
  }

  lemma Single<T>(b: seq<T>)
    requires |b| == 1
    ensures b == [b[0]]
  {
  }

  lemma Pair<T>(b: seq<T>)
    requires |b| == 2
    ensures b == [b[0], b[1]]
  {
  }

  lemma Triple<T>(b: seq<T>)
    requires |b| == 3
    ensures b == [b[0], b[1], b[2]]
  {
  }
}

=== FILE: strings.dfy ===
/** The parts of Go's `strings` package that the proxy relies on, over `string`
    (a sequence of Unicode scalar values, so one `char` is one rune).

    `IndexFrom` and `ReplaceFrom` follow the library's algorithm: from a start
    offset, find the leftmost occurrence, keep the text before it, continue
    after it. `ScanFrom` is an independent character-by-character definition of
    the same replacement, and `ReplaceAllIsScan` proves the two agree. */
module Strings {
  import opened Wrappers

  /** `strings.HasPrefix(s, p)`: `s` is `p` followed by the rest of `s`. */
  predicate HasPrefix(s: string, p: string)
    ensures HasPrefix(s, p) ==> |p| <= |s| && s == p + s[|p|..]
  {
    |p| <= |s| && s[..|p|] == p
  }

  /** `p` occurs in `s` starting at position `i`. */
  predicate OccursAt(s: string, p: string, i: int) {
    0 <= i && i + |p| <= |s| && s[i..i + |p|] == p
  }

  /** The leftmost occurrence of `p` in `s` at or after `k`, if any. */
  function IndexFrom(s: string, p: string, k: nat): (r: Option<nat>)
    ensures r.Some? ==> k <= r.value && r.value + |p| <= |s|
    decreases |s| - k
  {
    if k + |p| > |s| then None
    else if OccursAt(s, p, k) then Some(k)
    else IndexFrom(s, p, k + 1)
  }

  /** `strings.Index(s, p)`. */
  function Index(s: string, p: string): Option<nat> {
    IndexFrom(s, p, 0)
  }

  /** `strings.Contains(s, p)`: a string contains its prefixes, and nothing
      longer than itself. */
  predicate Contains(s: string, p: string)
    ensures Contains(s, p) ==> |p| <= |s|
    ensures HasPrefix(s, p) ==> Contains(s, p)
  {
    Index(s, p).Some?
  }

  /** `IndexFrom` reports an occurrence with none between `k` and it, and
      `None` only when nothing occurs at or after `k`. */
  lemma {:induction false} IndexFromSpec(s: string, p: string, k: nat)
    ensures IndexFrom(s, p, k).Some? ==> OccursAt(s, p, IndexFrom(s, p, k).value)
    ensures IndexFrom(s, p, k).Some? ==>
              forall j :: k <= j < IndexFrom(s, p, k).value ==> !OccursAt(s, p, j)
    ensures IndexFrom(s, p, k).None? ==> forall j :: k <= j ==> !OccursAt(s, p, j)
    decreases |s| - k
  {
    if k + |p| > |s| {
    } else if OccursAt(s, p, k) {
    } else {
      IndexFromSpec(s, p, k + 1);
    }
  }

  /** `Contains` holds exactly when `p` occurs somewhere in `s`. */
  lemma ContainsIff(s: string, p: string)
    ensures Contains(s, p) <==> exists i :: OccursAt(s, p, i)
  {
    IndexFromSpec(s, p, 0);
    if Contains(s, p) {
      assert OccursAt(s, p, Index(s, p).value);
    }
  }

  /** A string shorter than the pattern cannot contain it. */
  lemma ShortNotContains(s: string, p: string)
    requires |s| < |p|
    ensures !Contains(s, p)
  {
  }

  /** `ReplaceAll(s, "", rep)`: Go inserts `rep` before every rune and once at the end. */
  function Interleave(s: string, rep: string): string {
    if |s| == 0 then rep else rep + [s[0]] + Interleave(s[1..], rep)
  }

  /** The loop of Go's `strings.Replace` from offset `k` on, for a non-empty
      pattern: copy up to the next occurrence, write `rep`, skip the occurrence. */
  function ReplaceFrom(s: string, pat: string, rep: string, k: nat): string
    requires |pat| > 0 && k <= |s|
    decreases |s| - k
  {
    match IndexFrom(s, pat, k)
    case None => s[k..]
    case Some(i) => s[k..i] + rep + ReplaceFrom(s, pat, rep, i + |pat|)
  }

  /** `strings.ReplaceAll(s, pat, rep)`: every non-overlapping occurrence of
      `pat`, found left to right, is replaced by `rep`. */
  function ReplaceAll(s: string, pat: string, rep: string): (r: string)
    ensures !Contains(s, pat) ==> r == s
  {
    if |pat| == 0 then Interleave(s, rep) else ReplaceFrom(s, pat, rep, 0)
  }

  /** `strings.Count(s, p)` from offset `k`, for a non-empty `p`. */
  function CountFrom(s: string, p: string, k: nat): nat
    requires |p| > 0 && k <= |s|
    decreases |s| - k
  {
    match IndexFrom(s, p, k)
    case None => 0
    case Some(i) => 1 + CountFrom(s, p, i + |p|)
  }

  /** `strings.Count(s, p)` for a non-empty `p`: the number of non-overlapping
      occurrences, found left to right. */
  function Count(s: string, p: string): nat
    requires |p| > 0
  {
    CountFrom(s, p, 0)
  }

  /** Reference definition: scan one character at a time; when `pat` starts
      here, emit `rep` and jump past it, otherwise copy the character. */
  function ScanFrom(s: string, pat: string, rep: string, k: nat): string
    requires |pat| > 0 && k <= |s|
    decreases |s| - k
  {
    if k == |s| then ""
    else if OccursAt(s, pat, k) then rep + ScanFrom(s, pat, rep, k + |pat|)
    else [s[k]] + ScanFrom(s, pat, rep, k + 1)
  }

  lemma ScanHit(s: string, pat: string, rep: string, k: nat)
    requires |pat| > 0 && k < |s| && OccursAt(s, pat, k)
    requires ReplaceFrom(s, pat, rep, k + |pat|) == ScanFrom(s, pat, rep, k + |pat|)
    ensures ReplaceFrom(s, pat, rep, k) == ScanFrom(s, pat, rep, k)
  {
    IndexFromHere(s, pat, k);
    ReplaceFromAt(s, pat, rep, k, k);
    EmptySlice(s, k, rep, ReplaceFrom(s, pat, rep, k + |pat|));
    ScanFromHit(s, pat, rep, k);
  }

  lemma IndexFromHere(s: string, p: string, k: nat)
    requires OccursAt(s, p, k)
    ensures IndexFrom(s, p, k) == Some(k)
  {
  }

  lemma EmptySlice(s: string, k: nat, rep: string, t: string)
    requires k <= |s|
    ensures s[k..k] + rep + t == rep + t
  {
    assert s[k..k] == [];
  }

  /** The reference scan emits `rep` where the pattern starts. */
  lemma ScanFromHit(s: string, pat: string, rep: string, k: nat)
    requires |pat| > 0 && k < |s| && OccursAt(s, pat, k)
    ensures ScanFrom(s, pat, rep, k) == rep + ScanFrom(s, pat, rep, k + |pat|)
  {
  }

  lemma ScanMiss(s: string, pat: string, rep: string, k: nat)
    requires |pat| > 0 && k < |s| && !OccursAt(s, pat, k)
    requires ReplaceFrom(s, pat, rep, k + 1) == ScanFrom(s, pat, rep, k + 1)
    ensures ReplaceFrom(s, pat, rep, k) == ScanFrom(s, pat, rep, k)
  {
    IndexFromSkip(s, pat, k);
    ScanFromMiss(s, pat, rep, k);
    ReplaceFromMiss(s, pat, rep, k);
  }

  /** The reference scan copies a character where the pattern does not start. */
  lemma ScanFromMiss(s: string, pat: string, rep: string, k: nat)
    requires |pat| > 0 && k < |s| && !OccursAt(s, pat, k)
    ensures ScanFrom(s, pat, rep, k) == [s[k]] + ScanFrom(s, pat, rep, k + 1)
  {
  }

  /** So does the replacement loop, whether or not an occurrence follows. */
  lemma ReplaceFromMiss(s: string, pat: string, rep: string, k: nat)
    requires |pat| > 0 && k < |s| && IndexFrom(s, pat, k) == IndexFrom(s, pat, k + 1)
    ensures ReplaceFrom(s, pat, rep, k) == [s[k]] + ReplaceFrom(s, pat, rep, k + 1)
  {
    if IndexFrom(s, pat, k + 1).None? {
      ReplaceFromNone(s, pat, rep, k);
      ReplaceFromNone(s, pat, rep, k + 1);
      assert s[k..] == [s[k]] + s[k + 1..];
    } else {
      ReplaceFromMissBefore(s, pat, rep, k, IndexFrom(s, pat, k + 1).value);
    }
  }

  lemma ReplaceFromMissBefore(s: string, pat: string, rep: string, k: nat, i: nat)
    requires |pat| > 0 && k < |s| && IndexFrom(s, pat, k) == IndexFrom(s, pat, k + 1) == Some(i)
    ensures ReplaceFrom(s, pat, rep, k) == [s[k]] + ReplaceFrom(s, pat, rep, k + 1)
  {
    var tail := ReplaceFrom(s, pat, rep, i + |pat|);
    ReplaceFromAt(s, pat, rep, k, i);
    ReplaceFromAt(s, pat, rep, k + 1, i);
    ConsSlice(s, k, i, rep, tail);
  }

  /** Peeling the first character off a slice in front of a suffix. */
  lemma ConsSlice(s: string, k: nat, i: nat, rep: string, t: string)
    requires k < i <= |s|
    ensures s[k..i] + rep + t == [s[k]] + (s[k + 1..i] + rep + t)
  {
    assert s[k..i] == [s[k]] + s[k + 1..i];
  }

  /** Searching past a position where the pattern does not start. */
  lemma IndexFromSkip(s: string, p: string, k: nat)
    requires k < |s| && !OccursAt(s, p, k)
    ensures IndexFrom(s, p, k) == IndexFrom(s, p, k + 1)
  {
  }

  /** One step of the replacement loop: copy up to the found occurrence. */
  lemma ReplaceFromAt(s: string, pat: string, rep: string, k: nat, i: nat)
    requires |pat| > 0 && k <= |s| && IndexFrom(s, pat, k) == Some(i)
    ensures ReplaceFrom(s, pat, rep, k) == s[k..i] + rep + ReplaceFrom(s, pat, rep, i + |pat|)
  {
  }

  /** The last step of the replacement loop: copy the rest. */
  lemma ReplaceFromNone(s: string, pat: string, rep: string, k: nat)
    requires |pat| > 0 && k <= |s| && IndexFrom(s, pat, k).None?
    ensures ReplaceFrom(s, pat, rep, k) == s[k..]
  {
  }

  /** The library loop and the character scan replace the same occurrences. */
  lemma {:induction false} ReplaceFromIsScan(s: string, pat: string, rep: string, k: nat)
    requires |pat| > 0 && k <= |s|
    ensures ReplaceFrom(s, pat, rep, k) == ScanFrom(s, pat, rep, k)
    decreases |s| - k
  {
    if k == |s| {
    } else if OccursAt(s, pat, k) {
      ReplaceFromIsScan(s, pat, rep, k + |pat|);
      ScanHit(s, pat, rep, k);
    } else {
      ReplaceFromIsScan(s, pat, rep, k + 1);
      ScanMiss(s, pat, rep, k);
    }
  }

  lemma ReplaceAllIsScan(s: string, pat: string, rep: string)
    requires |pat| > 0
    ensures ReplaceAll(s, pat, rep) == ScanFrom(s, pat, rep, 0)
  {
    ReplaceFromIsScan(s, pat, rep, 0);
  }

  /** An occurrence in `t` is an occurrence in `a + t`, shifted by `|a|`. */
  lemma OccursAtShift(a: string, t: string, p: string, k: nat)
    ensures OccursAt(a + t, p, |a| + k) <==> OccursAt(t, p, k)
  {
    if k + |p| <= |t| {
      assert (a + t)[|a| + k..|a| + k + |p|] == t[k..k + |p|];
    }
  }

  /** Scanning `a + t` past `a` is scanning `t`: no occurrence can reach back into `a`. */
  lemma {:induction false} ScanShift(a: string, t: string, pat: string, rep: string, k: nat)
    requires |pat| > 0 && k <= |t|
    ensures ScanFrom(a + t, pat, rep, |a| + k) == ScanFrom(t, pat, rep, k)
    decreases |t| - k
  {
    if k == |t| {
    } else if OccursAt(t, pat, k) {
      ScanShift(a, t, pat, rep, k + |pat|);
      ScanShiftHit(a, t, pat, rep, k);
    } else {
      ScanShift(a, t, pat, rep, k + 1);
      ScanShiftMiss(a, t, pat, rep, k);
    }
  }

  lemma ScanShiftHit(a: string, t: string, pat: string, rep: string, k: nat)
    requires |pat| > 0 && k < |t| && OccursAt(t, pat, k)
    requires ScanFrom(a + t, pat, rep, |a| + k + |pat|) == ScanFrom(t, pat, rep, k + |pat|)
    ensures ScanFrom(a + t, pat, rep, |a| + k) == ScanFrom(t, pat, rep, k)
  {
    OccursAtShift(a, t, pat, k);
    ScanFromHit(t, pat, rep, k);
    ScanFromHit(a + t, pat, rep, |a| + k);
  }

  lemma ScanShiftMiss(a: string, t: string, pat: string, rep: string, k: nat)
    requires |pat| > 0 && k < |t| && !OccursAt(t, pat, k)
    requires ScanFrom(a + t, pat, rep, |a| + k + 1) == ScanFrom(t, pat, rep, k + 1)
    ensures ScanFrom(a + t, pat, rep, |a| + k) == ScanFrom(t, pat, rep, k)
  {
    OccursAtShift(a, t, pat, k);
    ScanFromMiss(t, pat, rep, k);
    ScanFromMiss(a + t, pat, rep, |a| + k);
    assert (a + t)[|a| + k] == t[k];
  }

  /** A string that starts with the pattern: the first occurrence is replaced,
      then the rest is processed on its own. */
  lemma ReplaceAllPrefix(pat: string, t: string, rep: string)
    requires |pat| > 0
    ensures ReplaceAll(pat + t, pat, rep) == rep + ReplaceAll(t, pat, rep)
  {
    ReplaceAllIsScan(pat + t, pat, rep);
    ReplaceAllIsScan(t, pat, rep);
    assert (pat + t)[..|pat|] == pat;
    assert OccursAt(pat + t, pat, 0);
    ScanShift(pat, t, pat, rep, 0);
  }

  /** Without an occurrence of `pat`, `ReplaceAll` leaves the string alone. */
  lemma ReplaceAllAbsent(s: string, pat: string, rep: string)
    requires !Contains(s, pat)
    ensures ReplaceAll(s, pat, rep) == s
  {
  }

  lemma ScanSelfHit(s: string, pat: string, k: nat)
    requires |pat| > 0 && k < |s| && OccursAt(s, pat, k)
    requires ScanFrom(s, pat, pat, k + |pat|) == s[k + |pat|..]
    ensures ScanFrom(s, pat, pat, k) == s[k..]
  {
    assert s[k..] == s[k..k + |pat|] + s[k + |pat|..];
  }

  lemma {:induction false} ScanSelf(s: string, pat: string, k: nat)
    requires |pat| > 0 && k <= |s|
    ensures ScanFrom(s, pat, pat, k) == s[k..]
    decreases |s| - k
  {
    if k == |s| {
    } else if OccursAt(s, pat, k) {
      ScanSelf(s, pat, k + |pat|);
      ScanSelfHit(s, pat, k);
    } else {
      ScanSelf(s, pat, k + 1);
      assert s[k..] == [s[k]] + s[k + 1..];
    }
  }

  lemma {:induction false} InterleaveEmpty(s: string)
    ensures Interleave(s, "") == s
  {
    if |s| > 0 {
      InterleaveEmpty(s[1..]);
      assert s == [s[0]] + s[1..];
    }
  }

  /** Replacing a pattern by itself changes nothing (Go short-cuts this case;
      the general algorithm gives the same answer). */
  lemma ReplaceAllSelf(s: string, pat: string)
    ensures ReplaceAll(s, pat, pat) == s
  {
    if |pat| == 0 {
      InterleaveEmpty(s);
    } else {
      ReplaceAllIsScan(s, pat, pat);
      ScanSelf(s, pat, 0);
    }
  }

  /** Each replaced occurrence trades `|pat|` characters for `|rep|`. */
  lemma {:induction false} ReplaceFromLength(s: string, pat: string, rep: string, k: nat)
    requires |pat| > 0 && k <= |s|
    ensures |ReplaceFrom(s, pat, rep, k)| + CountFrom(s, pat, k) * |pat|
            == |s| - k + CountFrom(s, pat, k) * |rep|
    decreases |s| - k
  {
    match IndexFrom(s, pat, k)
    case None =>
    case Some(i) =>
      ReplaceFromLength(s, pat, rep, i + |pat|);
      LengthStep(s, pat, rep, k, i);
  }

  lemma LengthStep(s: string, pat: string, rep: string, k: nat, i: nat)
    requires |pat| > 0 && k <= |s| && IndexFrom(s, pat, k) == Some(i)
    requires |ReplaceFrom(s, pat, rep, i + |pat|)| + CountFrom(s, pat, i + |pat|) * |pat|
             == |s| - (i + |pat|) + CountFrom(s, pat, i + |pat|) * |rep|
    ensures |ReplaceFrom(s, pat, rep, k)| + CountFrom(s, pat, k) * |pat|
            == |s| - k + CountFrom(s, pat, k) * |rep|
  {
    var c := CountFrom(s, pat, i + |pat|);
    var n := |ReplaceFrom(s, pat, rep, i + |pat|)|;
    assert CountFrom(s, pat, k) == 1 + c;
    assert |ReplaceFrom(s, pat, rep, k)| == i - k + |rep| + n;
    OneMoreReplacement(n, c, |pat|, |rep|);
  }

  lemma OneMoreReplacement(n: int, c: int, p: int, r: int)
    ensures n + (1 + c) * p == n + p + c * p
    ensures (1 + c) * r == r + c * r
  {
  }

  lemma ReplaceAllLength(s: string, pat: string, rep: string)
    requires |pat| > 0
    ensures |ReplaceAll(s, pat, rep)| + Count(s, pat) * |pat| == |s| + Count(s, pat) * |rep|
  {
    ReplaceFromLength(s, pat, rep, 0);
  }

  /** `IndexFrom` finds any occurrence that nothing before it (from `k`) precedes. */
  lemma IndexFromFirst(s: string, p: string, k: nat, i: nat)
    requires k <= i && OccursAt(s, p, i)
    requires forall j :: k <= j < i ==> !OccursAt(s, p, j)
    ensures IndexFrom(s, p, k) == Some(i)
  {
    IndexFromSpec(s, p, k);
  }

  lemma IndexFromNone(s: string, p: string, k: nat)
    requires forall j :: k <= j ==> !OccursAt(s, p, j)
    ensures IndexFrom(s, p, k) == None
  {
    IndexFromSpec(s, p, k);
  }

  /** A pattern that occurs exactly once is replaced in place. */
  lemma ReplaceAllSingle(s: string, pat: string, rep: string, i: nat)
    requires |pat| > 0 && OccursAt(s, pat, i)
    requires forall j :: j != i ==> !OccursAt(s, pat, j)
    ensures ReplaceAll(s, pat, rep) == s[..i] + rep + s[i + |pat|..]
  {
    IndexFromFirst(s, pat, 0, i);
    IndexFromNone(s, pat, i + |pat|);
    ReplaceAllOnce(s, pat, rep, i);
  }

  lemma ReplaceAllOnce(s: string, pat: string, rep: string, i: nat)
    requires |pat| > 0 && IndexFrom(s, pat, 0) == Some(i) && IndexFrom(s, pat, i + |pat|).None?
    ensures ReplaceAll(s, pat, rep) == s[..i] + rep + s[i + |pat|..]
  {
    assert ReplaceAll(s, pat, rep) == ReplaceFrom(s, pat, rep, 0);
    ReplaceFromAt(s, pat, rep, 0, i);
    PrefixSlice(s, i);
    ReplaceFromNone(s, pat, rep, i + |pat|);
  }

  /** The first occurrence is replaced in place and the text after it is
      processed on its own. */
  lemma ReplaceAllFirstAt(s: string, pat: string, rep: string, i: nat)
    requires |pat| > 0 && OccursAt(s, pat, i)
    requires forall j :: 0 <= j < i ==> !OccursAt(s, pat, j)
    ensures ReplaceAll(s, pat, rep) == s[..i] + rep + ReplaceAll(s[i + |pat|..], pat, rep)
  {
    IndexFromFirst(s, pat, 0, i);
    ReplaceAllAt(s, pat, rep, i);
  }

  /** The first step of the replacement loop, from the start. */
  lemma ReplaceAllAt(s: string, pat: string, rep: string, i: nat)
    requires |pat| > 0 && IndexFrom(s, pat, 0) == Some(i)
    ensures ReplaceAll(s, pat, rep) == s[..i] + rep + ReplaceAll(s[i + |pat|..], pat, rep)
  {
    var tail := ReplaceFrom(s, pat, rep, i + |pat|);
    assert ReplaceAll(s, pat, rep) == ReplaceFrom(s, pat, rep, 0);
    ReplaceFromAt(s, pat, rep, 0, i);
    PrefixSlice(s, i);
    ReplaceFromSuffix(s, pat, rep, i + |pat|);
    assert tail == ReplaceAll(s[i + |pat|..], pat, rep);
  }

  /** The replacement loop from offset `k` is `ReplaceAll` on the suffix. */
  lemma ReplaceFromSuffix(s: string, pat: string, rep: string, k: nat)
    requires |pat| > 0 && k <= |s|
    ensures ReplaceFrom(s, pat, rep, k) == ReplaceAll(s[k..], pat, rep)
  {
    var a, t := s[..k], s[k..];
    ReplaceFromIsScan(s, pat, rep, k);
    ScanShiftSplit(s, pat, rep, k);
    ReplaceAllIsScan(t, pat, rep);
  }

  lemma ScanShiftSplit(s: string, pat: string, rep: string, k: nat)
    requires |pat| > 0 && k <= |s|
    ensures ScanFrom(s, pat, rep, k) == ScanFrom(s[k..], pat, rep, 0)
  {
    var a, t := s[..k], s[k..];
    ScanShift(a, t, pat, rep, 0);
    assert a + t == s;
  }

  lemma PrefixSlice(s: string, i: nat)
    requires i <= |s|
    ensures s[0..i] == s[..i]
  {
  }

  lemma PrefixOfConcat(p: string, t: string)
    ensures HasPrefix(p + t, p)
  {
    assert (p + t)[..|p|] == p;
  }

  lemma ConcatCancel(p: string, x: string, y: string)
    ensures p + x == p + y <==> x == y
  {
    if p + x == p + y {
      assert x == (p + x)[|p|..];
    }
  }
}

=== FILE: utf8.dfy ===
/** UTF-8, the byte form Go gives a string in `[]byte(s)`.

    A Dafny `char` is a Unicode scalar value, so every string has exactly one
    UTF-8 encoding. `Decode` is the strict inverse: it accepts only shortest
    forms of scalar values, which makes encoding and decoding a bijection
    between strings and well-formed byte sequences. */
module Utf8 {
  import opened Wrappers
  import opened Bytes
  import opened Seqs

  /** A continuation byte `10xxxxxx`. */
  predicate IsContinuation(b: byte) {
    0x80 <= b as int < 0xC0
  }

  /** The bytes of one scalar value, most significant bits first. */
  function EncodeChar(c: char): (r: seq<byte>)
    ensures 1 <= |r| <= 4
    ensures |r| == 1 <==> (c as int) < 0x80
  {
    var n := c as int;
    if n < 0x80 then
      [n as byte]
    else if n < 0x800 then
      [(0xC0 + n / 0x40) as byte, (0x80 + n % 0x40) as byte]
    else if n < 0x1_0000 then
      [(0xE0 + n / 0x1000) as byte, (0x80 + n / 0x40 % 0x40) as byte, (0x80 + n % 0x40) as byte]
    else
      [(0xF0 + n / 0x4_0000) as byte, (0x80 + n / 0x1000 % 0x40) as byte,
       (0x80 + n / 0x40 % 0x40) as byte, (0x80 + n % 0x40) as byte]
  }

  /** `[]byte(s)`. */
  function Encode(s: string): (r: seq<byte>)
  {
    if |s| == 0 then [] else EncodeChar(s[0]) + Encode(s[1..])
  }

  /** Every character takes one to four bytes. */
  lemma {:induction false} EncodeBounds(s: string)
    ensures |s| <= |Encode(s)| <= 4 * |s|
  {
    if |s| > 0 {
      EncodeBounds(s[1..]);
    }
  }

  /** The scalar value at the front of `b` and the number of bytes it takes,
      or `None` when the front of `b` is not a shortest-form encoding. */
  function DecodeFirst(b: seq<byte>): (r: Option<(char, nat)>)
    requires |b| > 0
    ensures r.Some? ==> 1 <= r.value.1 <= |b|
  {
    var b0 := b[0] as int;
    if b0 < 0x80 then
      Some((b0 as char, 1))
    else if 0xC0 <= b0 < 0xE0 && |b| >= 2 && IsContinuation(b[1]) then
      var n := (b0 - 0xC0) * 0x40 + (b[1] as int - 0x80);
      if n >= 0x80 then Some((n as char, 2)) else None
    else if 0xE0 <= b0 < 0xF0 && |b| >= 3 && IsContinuation(b[1]) && IsContinuation(b[2]) then
      var n := (b0 - 0xE0) * 0x1000 + (b[1] as int - 0x80) * 0x40 + (b[2] as int - 0x80);
      if n >= 0x800 && !(0xD800 <= n < 0xE000) then Some((n as char, 3)) else None
    else if 0xF0 <= b0 < 0xF8 && |b| >= 4 && IsContinuation(b[1]) && IsContinuation(b[2])
            && IsContinuation(b[3]) then
      var n := (b0 - 0xF0) * 0x4_0000 + (b[1] as int - 0x80) * 0x1000
               + (b[2] as int - 0x80) * 0x40 + (b[3] as int - 0x80);
      if 0x1_0000 <= n < 0x11_0000 then Some((n as char, 4)) else None
    else
      None
  }

  /** The string whose UTF-8 encoding is `b`, if `b` is well formed. */
  function Decode(b: seq<byte>): Option<string>
    decreases |b|
  {
    if |b| == 0 then Some("")
    else
      match DecodeFirst(b)
      case None => None
      case Some((c, w)) =>
        match Decode(b[w..])
        case None => None
        case Some(s) => Some([c] + s)
  }

  lemma DecodeFirstOne(c: char, rest: seq<byte>)
    requires (c as int) < 0x80
    ensures DecodeFirst(EncodeChar(c) + rest) == Some((c, 1))
  {
  }

  lemma DecodeFirstTwo(c: char, rest: seq<byte>)
    requires 0x80 <= (c as int) < 0x800
    ensures DecodeFirst(EncodeChar(c) + rest) == Some((c, 2))
  {
    var b := EncodeChar(c) + rest;
    var n := c as int;
    assert b[0] as int == 0xC0 + n / 0x40;
    assert b[1] as int == 0x80 + n % 0x40;
  }

  lemma DecodeFirstThree(c: char, rest: seq<byte>)
    requires 0x800 <= (c as int) < 0x1_0000
    ensures DecodeFirst(EncodeChar(c) + rest) == Some((c, 3))
  {
    var b := EncodeChar(c) + rest;
    var n := c as int;
    var d0, d1, d2 := n / 0x1000, n / 0x40 % 0x40, n % 0x40;
    ThreeGroups(n);
    assert b[..3] == [(0xE0 + d0) as byte, (0x80 + d1) as byte, (0x80 + d2) as byte];
    DecodeThreeBytes(b, d0, d1, d2);
  }

  /** The four-bit and two six-bit groups of a basic-plane value. */
  lemma ThreeGroups(n: int)
    requires 0x800 <= n < 0x1_0000
    ensures 0 <= n / 0x1000 < 0x10 && 0 <= n / 0x40 % 0x40 < 0x40 && 0 <= n % 0x40 < 0x40
    ensures n == n / 0x1000 * 0x1000 + n / 0x40 % 0x40 * 0x40 + n % 0x40
  {
    var q1 := n / 0x40;
    assert n == q1 * 0x40 + n % 0x40;
    assert q1 / 0x40 == n / 0x1000;
    assert q1 == q1 / 0x40 * 0x40 + q1 % 0x40;
  }

  /** Three bytes `1110xxxx 10xxxxxx 10xxxxxx` carrying the groups of a
      basic-plane value outside the surrogates decode to it. */
  lemma DecodeThreeBytes(b: seq<byte>, d0: int, d1: int, d2: int)
    requires |b| >= 3 && 0 <= d0 < 0x10 && 0 <= d1 < 0x40 && 0 <= d2 < 0x40
    requires b[..3] == [(0xE0 + d0) as byte, (0x80 + d1) as byte, (0x80 + d2) as byte]
    requires 0x800 <= d0 * 0x1000 + d1 * 0x40 + d2 && !(0xD800 <= d0 * 0x1000 + d1 * 0x40 + d2 < 0xE000)
    ensures DecodeFirst(b) == Some(((d0 * 0x1000 + d1 * 0x40 + d2) as char, 3))
  {
    assert b[0] == b[..3][0] && b[1] == b[..3][1] && b[2] == b[..3][2];
  }

  lemma DecodeFirstFour(c: char, rest: seq<byte>)
    requires 0x1_0000 <= (c as int)
    ensures DecodeFirst(EncodeChar(c) + rest) == Some((c, 4))
  {
    var b := EncodeChar(c) + rest;
    var n := c as int;
    var d0, d1, d2, d3 := n / 0x4_0000, n / 0x1000 % 0x40, n / 0x40 % 0x40, n % 0x40;
    FourGroups(n);
    assert b[..4] == [(0xF0 + d0) as byte, (0x80 + d1) as byte, (0x80 + d2) as byte, (0x80 + d3) as byte];
    DecodeFourBytes(b, d0, d1, d2, d3);
  }

  /** The four six-bit (three-bit for the first) groups of a scalar value. */
  lemma FourGroups(n: int)
    requires 0x1_0000 <= n < 0x11_0000
    ensures 0 <= n / 0x4_0000 < 8 && 0 <= n / 0x1000 % 0x40 < 0x40
    ensures 0 <= n / 0x40 % 0x40 < 0x40 && 0 <= n % 0x40 < 0x40
    ensures n == n / 0x4_0000 * 0x4_0000 + n / 0x1000 % 0x40 * 0x1000 + n / 0x40 % 0x40 * 0x40 + n % 0x40
  {
    var q1 := n / 0x40;
    var q2 := q1 / 0x40;
    assert n == q1 * 0x40 + n % 0x40;
    assert q1 == q2 * 0x40 + q1 % 0x40;
    assert q2 == n / 0x1000;
    assert q2 / 0x40 == n / 0x4_0000;
    assert q2 == q2 / 0x40 * 0x40 + q2 % 0x40;
  }

  /** Four bytes `11110xxx 10xxxxxx 10xxxxxx 10xxxxxx` carrying the groups
      of a supplementary-plane value decode to it. */
  lemma DecodeFourBytes(b: seq<byte>, d0: int, d1: int, d2: int, d3: int)
    requires |b| >= 4 && 0 <= d0 < 8 && 0 <= d1 < 0x40 && 0 <= d2 < 0x40 && 0 <= d3 < 0x40
    requires b[..4] == [(0xF0 + d0) as byte, (0x80 + d1) as byte, (0x80 + d2) as byte, (0x80 + d3) as byte]
    requires 0x1_0000 <= d0 * 0x4_0000 + d1 * 0x1000 + d2 * 0x40 + d3 < 0x11_0000
    ensures DecodeFirst(b) == Some(((d0 * 0x4_0000 + d1 * 0x1000 + d2 * 0x40 + d3) as char, 4))
  {
    assert b[0] == b[..4][0] && b[1] == b[..4][1] && b[2] == b[..4][2] && b[3] == b[..4][3];
  }

  /** The decoder reads back exactly the scalar value the encoder wrote. */
  lemma DecodeFirstEncodeChar(c: char, rest: seq<byte>)
    ensures DecodeFirst(EncodeChar(c) + rest) == Some((c, |EncodeChar(c)|))
  {
    var n := c as int;
    if n < 0x80 {
      DecodeFirstOne(c, rest);
    } else if n < 0x800 {
      DecodeFirstTwo(c, rest);
    } else if n < 0x1_0000 {
      DecodeFirstThree(c, rest);
    } else {
      DecodeFirstFour(c, rest);
    }
  }

  /** Decoding the UTF-8 form of a string gives the string back. */
  lemma {:induction false} DecodeEncode(s: string)
    ensures Decode(Encode(s)) == Some(s)
  {
    if |s| > 0 {
      var head := EncodeChar(s[0]);
      var tail := Encode(s[1..]);
      DecodeFirstEncodeChar(s[0], tail);
      DropFront(head, tail);
      DecodeEncode(s[1..]);
      DecodeStep(head + tail, s[0], |head|, s[1..]);
      HeadTail(s);
    }
  }

  /** One decoded character in front of a decodable rest. */
  lemma DecodeStep(b: seq<byte>, c: char, w: nat, t: string)
    requires |b| > 0 && DecodeFirst(b) == Some((c, w)) && Decode(b[w..]) == Some(t)
    ensures Decode(b) == Some([c] + t)
  {
  }

  lemma EncodeDecodeFirstTwo(b: seq<byte>, c: char)
    requires |b| >= 2 && DecodeFirst(b) == Some((c, 2))
    ensures EncodeChar(c) == b[..2]
  {
    var n := (b[0] as int - 0xC0) * 0x40 + (b[1] as int - 0x80);
    assert c as int == n;
    assert (0xC0 + n / 0x40) == b[0] as int;
    assert (0x80 + n % 0x40) == b[1] as int;
  }

  lemma EncodeDecodeFirstThree(b: seq<byte>, c: char)
    requires |b| >= 3 && DecodeFirst(b) == Some((c, 3))
    ensures EncodeChar(c) == b[..3]
  {
    var d0, d1, d2 := b[0] as int - 0xE0, b[1] as int - 0x80, b[2] as int - 0x80;
    ThreeByteFields(b, c);
    var n := c as int;
    ThreeDigits(n, d0, d1, d2);
    assert EncodeChar(c) == [(0xE0 + d0) as byte, (0x80 + d1) as byte, (0x80 + d2) as byte];
    assert b[..3] == [b[0], b[1], b[2]];
  }

  /** What the decoder checked when it accepted three bytes. */
  lemma ThreeByteFields(b: seq<byte>, c: char)
    requires |b| >= 3 && DecodeFirst(b) == Some((c, 3))
    ensures 0xE0 <= b[0] as int < 0xF0 && IsContinuation(b[1]) && IsContinuation(b[2])
    ensures c as int == (b[0] as int - 0xE0) * 0x1000 + (b[1] as int - 0x80) * 0x40 + (b[2] as int - 0x80)
    ensures 0x800 <= c as int < 0x1_0000
  {
  }

  /** A number built from a four-bit and two six-bit groups splits back into them. */
  lemma ThreeDigits(n: int, d0: int, d1: int, d2: int)
    requires 0 <= d0 < 0x10 && 0 <= d1 < 0x40 && 0 <= d2 < 0x40
    requires n == d0 * 0x1000 + d1 * 0x40 + d2
    ensures n / 0x1000 == d0 && n / 0x40 % 0x40 == d1 && n % 0x40 == d2
  {
    assert n / 0x40 == d0 * 0x40 + d1;
  }

  /** The four six-bit fields of a four-byte sequence's 21-bit value split back out. */
  lemma SixBitGroups(n: int, d0: int, d1: int, d2: int, d3: int)
    requires 0 <= d1 < 0x40 && 0 <= d2 < 0x40 && 0 <= d3 < 0x40 && 0 <= d0
    requires n == d0 * 0x4_0000 + d1 * 0x1000 + d2 * 0x40 + d3
    ensures n / 0x4_0000 == d0 && n / 0x1000 % 0x40 == d1
    ensures n / 0x40 % 0x40 == d2 && n % 0x40 == d3
  {
    var m := d1 * 0x1000 + d2 * 0x40 + d3;
    assert 0 <= m < 0x4_0000;
    assert n / 0x1000 == d0 * 0x40 + d1;
    assert n / 0x40 == d0 * 0x1000 + d1 * 0x40 + d2;
  }

  lemma EncodeDecodeFirstFour(b: seq<byte>, c: char)
    requires |b| >= 4 && DecodeFirst(b) == Some((c, 4))
    ensures EncodeChar(c) == b[..4]
  {
    var n := (b[0] as int - 0xF0) * 0x4_0000 + (b[1] as int - 0x80) * 0x1000
             + (b[2] as int - 0x80) * 0x40 + (b[3] as int - 0x80);
    assert c as int == n;
    SixBitGroups(n, b[0] as int - 0xF0, b[1] as int - 0x80, b[2] as int - 0x80, b[3] as int - 0x80);
  }

  /** Whatever the decoder accepts at the front is the encoder's output for that scalar value. */
  lemma EncodeDecodeFirst(b: seq<byte>, c: char, w: nat)
    requires |b| > 0 && DecodeFirst(b) == Some((c, w))
    ensures EncodeChar(c) == b[..w]
  {
    if w == 2 {
      EncodeDecodeFirstTwo(b, c);
    } else if w == 3 {
      EncodeDecodeFirstThree(b, c);
    } else if w == 4 {
      EncodeDecodeFirstFour(b, c);
    }
  }

  /** Only the UTF-8 form of a string decodes to it: the decoder accepts no
      overlong forms, surrogates or out-of-range values. */
  lemma {:induction false} EncodeDecode(b: seq<byte>)
    requires Decode(b).Some?
    ensures Encode(Decode(b).value) == b
    decreases |b|
  {
    if |b| > 0 {
      var first := DecodeFirst(b).value;
      var c, w := first.0, first.1;
      EncodeDecodeFirst(b, c, w);
      EncodeDecode(b[w..]);
      var s := Decode(b).value;
      assert s == [c] + Decode(b[w..]).value;
      assert s[1..] == Decode(b[w..]).value;
      assert b == b[..w] + b[w..];
    }
  }

  /** Encoding works character by character, so it distributes over concatenation. */
  lemma {:induction false} EncodeAppend(a: string, b: string)
    ensures Encode(a + b) == Encode(a) + Encode(b)
  {
    if |a| == 0 {
      assert a + b == b;
    } else {
      assert (a + b)[0] == a[0];
      assert (a + b)[1..] == a[1..] + b;
      EncodeAppend(a[1..], b);
    }
  }

  /** ASCII text is encoded one byte per character, each byte the character's code. */
  lemma {:induction false} EncodeAscii(s: string)
    requires forall i :: 0 <= i < |s| ==> (s[i] as int) < 0x80
    ensures |Encode(s)| == |s|
    ensures forall i :: 0 <= i < |s| ==> Encode(s)[i] as int == s[i] as int
  {
    if |s| > 0 {
      EncodeAscii(s[1..]);
    }
  }

  /** Sample encodings: the euro sign U+20AC takes three bytes, and the
      emoji U+1F600, outside the Basic Multilingual Plane, takes four. */
  lemma EncodeCharVectors()
    ensures EncodeChar('\U{20AC}') == [0xE2, 0x82, 0xAC]
    ensures EncodeChar('\U{1F600}') == [0xF0, 0x9F, 0x98, 0x80]
  {
  }
}

=== FILE: wrappers.dfy ===
/** Failure-carrying datatypes shared by the model.

    Go functions in the proxy return a `(value, error)` pair and hand back the
    zero value (`""`) together with every error. `Result` keeps the two cases
    apart; `GetOr("")` recovers the value Go's callers actually see. */
module Wrappers {

  datatype Option<+T> = None | Some(value: T)

  datatype Result<+T, +E> = Ok(value: T) | Err(error: E) {

    /** The value, or `default` on failure: Go's `v, err := f(); use(v)` without an error check. */
    function GetOr(default: T): T {
      match this
      case Ok(v) => v
      case Err(_) => default
    }
  }
}
